=== FILE: README.md ===
# landa — a Dafny model of the pull-request labelling bot

landa labels GitHub pull requests and sets commit statuses from rules keyed by
team membership, changed-file globs and branch names. It has two front ends:

* a webhook handler (`lambda_function.py`) that receives one pull-request
  message, resolves the repository's rules through a three-layer chain
  (repository block, default block, empty block), computes which labels each
  rule wants, reconciles them with the labels already on the pull request,
  replaces the label set only when it changes, and creates `pending` statuses
  for configured contexts that are missing on the last commit;
* a command-line bot (`landa/__init__.py`, `landa/objects.py`) that validates
  its configuration through one attribute setter. It either labels a listed
  batch of pull requests in ascending number order, or polls the repository's
  event feed newest-first with a cursor and a cache token, tracks open pull
  requests by head branch and labels them when they are opened or pushed to.

The model is purely functional. Network calls become parameters: the changed
files (for the polling bot, the file list fetched each time a pull request is
handled), the current labels and statuses, the fetched event pages, and
whether the repository exists. Mutating calls become results: the label set to
replace, the statuses to create, and the labels to add. Sleeping becomes the
interval a poll reports.

Modules, one per file:

| file | module | what it holds |
|---|---|---|
| wrappers.dfy | Wrappers | `Option`, `Result` |
| errors.dfy | Errors | the exceptions the code raises |
| seqs.dfy | Seqs | reverse, filter, and the last-assignment-wins map of a dict comprehension |
| strings.dfy | Strings | ASCII case mapping, `split`, last segment after a separator, `int()` on text |
| glob.dfy | Glob | shell-style matching with `*`, `?` and literal characters |
| rules.dfy | Rules | rule blocks, the repository registry, three-layer resolution |
| decision.dfy | Decision | the webhook handler: filters, label stages, reconciliation, statuses |
| settings.dfy | Settings | the command-line configuration object and its validating setter |
| events.dfy | Events | events and pull requests of the feed |
| poller.dfy | Poller | walking a page of events, and the polling loop |
| tracker.dfy | Tracker | open pull requests, event dispatch, labelling, the batch order |

Behaviours of the code the model keeps:

* A label that no stage mentions is never removed. A label a stage mentions
  but rejects is removed if present.
* The branch stages only turn labels on: a label is wanted by a branch rule
  if the glob matches or an earlier stage already wanted it. A file-pattern
  rule replaces the team stage's verdict for the same label.
* `synchronize` webhook messages are handled like `opened`. In the polling
  bot, only `opened` pull-request events trigger labelling; `reopened`
  and `closed` only change the tracked map.
* The command-line `--start` event id never reaches the configuration,
  because `start_event` is not among the attributes overrides may set
  (`Settings.CommandLineDebugWins`, `Settings.StartOptionIgnored`; see
  Findings). `Settings.OverrideCorrected` is the corrected allow-list.
* `Tracker.Dispatch` and `Tracker.Monitor` look a push up as the code does,
  by the text after the ref's last `/`. `Tracker.OnPush` is the corrected
  lookup by the whole branch name (see Findings); the two agree on branch
  names without `/` (`Tracker.PushKeysAgreeWithoutSlash`).
* An event id of 0 is falsy in the source. As a high-water mark it filters
  nothing, and it does not count as the newest id walked.

## Model

| member | source | states |
|---|---|---|
| Rules.Registry | lambda_function.py:10 | the registry's keys are exactly the lower-cased configured names; each key holds the block of the last entry with that name up to case |
| Rules.MonitoredIgnoringCase | lambda_function.py:67-69 | a repository is monitored iff some configured name equals its full name up to ASCII case |
| Rules.ChainLookup | lambda_function.py:71-75 | a chained lookup finds a value iff some layer has one, and returns the first layer's value that exists |
| Rules.Layered | lambda_function.py:71-75 | a rule resolved through the repository block, the default block and the empty block comes from the first of them that sets it |
| Rules.Resolve | lambda_function.py:71-75 | every one of the seven rule kinds is resolved through the three layers independently |
| Rules.EmptyBlocksFallThrough | lambda_function.py:13-21 | an empty repository block resolves exactly as the default block would as the repository's own; two empty blocks give the all-empty rules |
| Rules.EmptyBlockTakesDefaultKeys | lambda_function.py:13-21 | under an empty repository block, each of the seven keys the default block sets is taken from the default block |
| Glob.MatchIsLanguage | lambda_function.py:106 | the matcher accepts a name iff the name is in the glob's language (`*` any string including `/`, `?` any character, others literally) |
| Glob.LiteralMatchesItself | lambda_function.py:106 | a glob without wildcards matches exactly itself |
| Glob.StarMatchesAll | lambda_function.py:116 | `*` matches every name |
| Glob.PrefixStar | lambda_function.py:120 | a wildcard-free prefix followed by `*` matches exactly the names with that prefix |
| Glob.DirectoryGlobExamples | lambda_function.py:106 | `db/*` matches files at any depth below `db/` and not `lib/db.rb` |
| Decision.TeamStage | lambda_function.py:95-96 | the team stage mentions every team label, and wants it iff the author is among its users |
| Decision.AnyFileMatches | lambda_function.py:106-107 | true iff some changed file matches the glob |
| Decision.FirstGlobHit | lambda_function.py:105-109 | true iff some glob of the list matches some changed file |
| Decision.FileStage | lambda_function.py:99-112 | a file-pattern rule sets its label to whether any of its globs hits a changed file, replacing the team verdict; other labels keep theirs |
| Decision.BranchStage | lambda_function.py:115-121 | a branch stage only turns labels on: a label is wanted afterwards iff it was wanted before or its glob matches the branch |
| Decision.LabelTestsFollowRules | lambda_function.py:95-121 | the mentioned labels are exactly the keys of the four rule kinds, and each is wanted iff the rule-by-rule criterion holds |
| Decision.FileRuleOverridesTeam | lambda_function.py:99-100 | a team member's label is not wanted when the label's file rule misses and no branch rule names it |
| Decision.BaseRuleWantsLabel | lambda_function.py:115-117 | a matching base-branch rule wants its label whatever the earlier stages said |
| Decision.Reconcile | lambda_function.py:124-132 | removals are current labels, additions are new labels, the two are disjoint; the new set holds exactly the wanted labels plus the unmentioned current ones; it differs from the current set iff something is added or removed |
| Decision.ReconcileIdempotent | lambda_function.py:124-134 | reconciling the already-reconciled set adds and removes nothing |
| Decision.StatusRequests | lambda_function.py:141-156 | one `pending` status with the configured description for exactly the configured contexts missing on the commit |
| Decision.OneRequestPerMissingContext | lambda_function.py:147-156 | the number of statuses created equals the number of configured contexts missing on the commit |
| Decision.OnlyMissingStatusCreated | lambda_function.py:147-150 | with `CI` set and `CI`, `Lint` configured, only `Lint` is created |
| Decision.Handle | lambda_function.py:46-156 | skips iff a filter applies, with that filter's reason; outside a dry run the labels are replaced iff some mentioned label's presence disagrees with the rules, and the replaced set holds each mentioned label iff the rules want it and keeps every other label; every configured context missing on the commit gets a `pending` status with its description; a dry run issues nothing |
| Decision.SkipsExactlyWhenFiltered | lambda_function.py:46-84 | the handler stops early exactly for a non-PR message, another action, an unmonitored repository, an ignored base branch or an ignored author |
| Decision.SecondRunIssuesNothing | lambda_function.py:134-156 | handling the same message again after the first run's calls took effect issues no call |
| Strings.Split | landa/objects.py:73 | splitting yields one more part than there are separators, none containing the separator |
| Strings.JoinSplit | landa/objects.py:73 | joining the parts with the separator gives back the text |
| Strings.ParseInt | landa/objects.py:78 | `int()` on text succeeds iff it is an optionally signed digit string, with the sign of the result following the sign character |
| Strings.ParseShowInt | landa/objects.py:78 | every integer's decimal text parses back to it |
| Strings.AfterLast | landa/__init__.py:191 | the last segment holds no separator and is the suffix right after the last separator |
| Settings.ToInt | landa/objects.py:76-78 | text converts iff it is a numeral, to the value it denotes; integers convert to themselves, booleans to 1 and 0; `None` and collections raise `TypeError` |
| Settings.SetLogLevel | landa/objects.py:66-71 | without a debug attribute the assignment raises; with debug on it is dropped; otherwise text is upper-cased and stored iff it is a known level, else `Invalid log level` is raised; only the level changes |
| Settings.SetRepository | landa/objects.py:72-75 | text is stored iff it has exactly one `/`, else `Invalid repository` is raised |
| Settings.SetInteger | landa/objects.py:76-78 | `None` and integers are stored as they are, a boolean as 1 or 0, a numeral as its value; other text raises `ValueError` and a collection `TypeError`; only that attribute changes |
| Settings.SetAttr | landa/objects.py:53-79 | a debug value the parser accepts first forces the level to `DEBUG` unless debug is already on; pull-request lists are parsed into sets; each other attribute is validated by its own rule; only the attribute and, for debug, the level change |
| Settings.DebugLocksLogLevel | landa/objects.py:66-67 | once debug is on, no run of assignments that leaves debug alone changes the log level |
| Settings.OverrideAllowing | landa/objects.py:98-102 | against any allow-list, overrides change nothing outside the allowed attributes and the log level a truthy debug flag forces |
| Settings.Override | landa/objects.py:98-102 | overrides change nothing outside the five attributes they may set |
| Settings.FalsyOverridesKeep | landa/objects.py:98-102 | overrides whose values are all falsy leave the configuration as it was |
| Settings.StartOptionIgnored | landa/__init__.py:216-219 | a command line giving only `--start` leaves the configuration unchanged: `start_event` is not in the allow-list (landa/objects.py:20, 101) |
| Settings.OverrideCorrected | landa/objects.py:20-21 | with `start_event` added to the allow-list, overrides change nothing outside the allowed attributes |
| Settings.CorrectedStartOptionStored | landa/__init__.py:8 | with the corrected allow-list, a non-empty `--start` is stored iff it is a numeral, as the integer it denotes, and otherwise raises `ValueError` |
| Settings.OverrideAssignsApplicable | landa/objects.py:98-102 | overriding is assigning, in order, exactly the overrides whose attribute is allowed and whose value is truthy |
| Settings.SetDefaults | landa/objects.py:104-111 | setting the defaults always succeeds; the result is the configuration with each defaulted attribute overwritten by its default and every other attribute kept |
| Settings.CommandLineDebugWins | landa/__init__.py:216-219 | with `debug` applied before `log_level`, on a defaulted configuration a truthy `--debug` wins over any `--logging` level, and `--start` never reaches the configuration |
| Settings.CommandLineLevelFirstDebugWins | landa/objects.py:98-102 | with `log_level` applied before `debug`, the overrides succeed iff the level is accepted or falsy, then `DEBUG` wins; an unknown level raises `Invalid log level` |
| Poller.InitCursor | landa/__init__.py:75-80 | a truthy start id resumes just below it with no start time; otherwise the cursor starts at the current time with no mark |
| Poller.ResumeFromStartEvent | landa/__init__.py:100-102 | resuming from event `s` stops exactly at ids below `s`, except that `s = 1` gives a mark of 0 that stops nothing |
| Poller.FreshFromNow | landa/__init__.py:100-102 | a fresh session stops exactly at events created before it started |
| Poller.StopIndex | landa/__init__.py:98-102 | the walk covers the longest prefix of the page in which no event stops it |
| Poller.StopIndexIs | landa/__init__.py:98-102 | a prefix in which no event stops, followed by a stopping event or the end of the page, is exactly the walked prefix |
| Poller.Newest | landa/__init__.py:107 | the newest id is `None` iff nothing was walked, and otherwise the first non-zero id walked (0 only if all walked ids are 0) |
| Poller.EventLoop | landa/__init__.py:96-112 | the loop yields the relevant walked events oldest first and the newest id walked; every yielded event is relevant, not stopped and from the page |
| Poller.WalkYieldsWalkedRelevant | landa/__init__.py:98-111 | a walk yields only relevant events of the page that do not stop it |
| Poller.WalkOneMore | landa/__init__.py:107-111 | one more walked event goes in front when relevant and sets the newest id unless one is set |
| Poller.Enter | landa/__init__.py:116-121 | entering the stream fails with `Can only enter` iff it is already running; otherwise the bot is marked running and starts with no token and no sleep |
| Poller.SecondEnterFails | landa/__init__.py:116-121 | after a successful entry, entering again fails, whatever the cursor |
| Poller.Poll | landa/__init__.py:122-144 | it sleeps only when asked, for the interval it was asked for; a connection error keeps cursor and token, yields nothing and retries after one second; a page yields the walked relevant events oldest first, stores the new token and interval, and sets the mark to the newest walked id unless that is missing or 0, in which case the mark is kept; a truthy new id is above a truthy old mark |
| Poller.RetryAfterOneSecond | landa/__init__.py:131-134 | the poll after a connection error sleeps one second and sends the same token |
| Poller.FilterKeepsNewestFirst | landa/__init__.py:109-111 | keeping only the relevant events preserves newest-first order |
| Poller.ReverseIsIncreasing | landa/__init__.py:109-111 | events put in front one by one come out with increasing ids |
| Poller.PageYield | landa/__init__.py:129-141 | a newest-first page yields increasing ids, none above the new mark |
| Poller.PollKeepsInvariant | landa/__init__.py:136-141 | one poll keeps the session's yield increasing and bounded by the mark |
| Poller.SessionYieldsIncreasingIds | landa/__init__.py:114-144 | over a whole session of newest-first pages no event is yielded twice and ids strictly increase |
| Tracker.IndexByHead | landa/__init__.py:90-92 | every open pull request's head branch is a key, each key holds one of the listed pull requests under its own head, and of several pull requests sharing a head branch the later in the list is kept |
| Tracker.Init | landa/__init__.py:75-94 | construction fails with `Invalid owner or repository name` iff the repository is missing; otherwise the cursor is initialised, the tracked map is the head-branch index of the listed pull requests and the bot is not running |
| Tracker.OnPullRequest | landa/__init__.py:168-185 | closing removes the branch, opening and reopening store the event's pull request under its branch (replacing any stale entry), other actions leave the map as it was, and only opening hands the pull request over for labelling |
| Tracker.OpenThenCloseForgets | landa/__init__.py:175-182 | opening then closing a pull request removes its branch, whatever was tracked under it before |
| Tracker.OnPushAsWritten | landa/__init__.py:187-193 | a ref outside `refs/heads/` raises; otherwise the pull request tracked under the text after the ref's last `/` is handed over, if there is one |
| Tracker.PushToSlashedBranchMisses | landa/__init__.py:191 | a push to `feature/x` misses the pull request on `feature/x` and picks the one on `x` |
| Tracker.OnPush | landa/__init__.py:187-193 | a ref outside `refs/heads/` raises; otherwise the pull request tracked under the named branch is handled, if there is one |
| Tracker.PushHandlesItsPullRequest | landa/__init__.py:187-193 | a push to a tracked pull request's head branch handles exactly that pull request |
| Tracker.PushKeysAgreeWithoutSlash | landa/__init__.py:191 | for branch names without `/` the as-written key and the whole branch agree |
| Tracker.Dispatch | landa/__init__.py:168-193 | an event raises iff it has no handler (another type, or a push outside `refs/heads/`); a pull-request event updates the map as `OnPullRequest` does; a push keeps the map and hands over the pull request under the text after the ref's last `/`; every pull request stays under its own head |
| Tracker.PushToTrackedBranchHandlesIt | landa/__init__.py:187-193 | a push to the slash-free head branch of a tracked pull request hands exactly that pull request over and keeps the map |
| Tracker.PrLabels | landa/__init__.py:151-156 | a label is earned iff the author is in that team or one of the files matches that pattern |
| Tracker.HandlePr | landa/__init__.py:146-166 | at most one call, issued iff not in debug mode and some label is earned, and it adds exactly the earned labels to that pull request |
| Tracker.HandlePrAddsEarnedLabels | landa/__init__.py:151-166 | a call adds a label iff the author is on that team or one of the files matches that pattern |
| Tracker.LabelCalls | landa/__init__.py:151-166 | the calls for a run of handled pull requests, each labelled from the files fetched when it is handled: none in debug mode, every call adds at least one label, each call adds the labels one handled pull request earns with its fetched files, and outside debug mode every one that earns a label gets its call |
| Tracker.LabelCallsAreHandlePrCalls | landa/__init__.py:146-166 | one more handled pull request appends exactly the `HandlePr` calls for it, judged on its fetched files |
| Tracker.LabelCallsIgnoreStoredFiles | landa/__init__.py:151-156 | pull-request records that differ only in their stored files give the same calls: the files are fetched anew (`pr.files()`) and the stored ones are never read |
| Tracker.Replay | landa/__init__.py:209-210 | dispatching the events in order succeeds iff every event has a handler, keeps every tracked pull request under its own head, and tags each handed-over pull request with the index of its event |
| Tracker.ReplaySnoc | landa/__init__.py:209-210 | the last event is dispatched against the map the earlier events left: the run ends with the map that dispatch leaves and appends what it hands over, tagged with its index |
| Tracker.ReplayAppendOne | landa/__init__.py:209-210 | replaying one more event is dispatching it against the map the run left |
| Tracker.ReplayDispatchesInTurn | landa/__init__.py:209-210 | every event is dispatched against the map the events before it left: it has an entry tagged with its index iff that dispatch hands a pull request over, and the entry is that pull request |
| Tracker.ReplayPushSeesEarlierEvents | landa/__init__.py:186-193 | a push hands a pull request over iff its key is tracked in the map the earlier events of the run left, and then the one tracked there |
| Tracker.OpenThenPushHandsOverTwice | landa/__init__.py:181-193 | opening a pull request on `b` and then pushing to `b` hands it over twice and leaves it tracked |
| Tracker.CloseThenPushHandsNothing | landa/__init__.py:175-193 | closing the pull request on `b` and then pushing to `b` hands nothing over and leaves nothing tracked |
| Tracker.ReplayTagsIncrease | landa/__init__.py:209-210 | the tags strictly increase: at most one pull request per event, in event order |
| Tracker.ReplayStopsAtFirstUnhandled | landa/__init__.py:209-210 | a failing run fails with the error of its first event that has no handler |
| Tracker.ReplayHandsOverOpened | landa/__init__.py:181-183 | every opened pull request is handed over, tagged with the event that opened it |
| Tracker.ReplayHandsOverOnlyOpenedOrPushed | landa/__init__.py:181-193 | from a map that keeps each pull request under its own head, every handed-over pull request was opened by its event or its head branch is the key of its event's push (the text after the ref's last `/`) |
| Tracker.Monitor | landa/__init__.py:146-210 | monitoring succeeds iff every event has a handler; it keeps every tracked pull request under its own head, ends with the map the replay leaves, hands over what the replay hands over, and issues the labelling calls of those pull requests, each from the files fetched at its event, none in debug mode |
| Tracker.MonitorHandlesOpenedAndPushed | landa/__init__.py:146-210 | a failing run fails at its first event without a handler; a successful one hands over every opened pull request, and only pull requests opened or pushed to by some event; every call adds the labels such a pull request earns with the files fetched at its event, and outside debug mode every opened pull request that earns a label that way gets its call |
| Tracker.PushLabelsFromFetchedFiles | landa/__init__.py:186-193 | a push labels from the files listed at the push, whatever the tracked record holds: the pull request on `b` earns `db` (pattern `db/*`) once a push brings `db/a` |
| Tracker.ParseNumbers | landa/__init__.py:198 | the listed numbers convert iff each is a numeral, each to its value; otherwise a `ValueError` names an offending item |
| Tracker.InsertKeepsAscending | landa/__init__.py:198 | inserting into an ascending list keeps it ascending |
| Tracker.SortedNumbers | landa/__init__.py:198 | the result is ascending and a permutation of the input |
| Tracker.BatchOrder | landa/__init__.py:197-206 | the batch order exists iff every item is a numeral; it is ascending and a permutation of the converted numbers, duplicates included |

## Left out

- Logging, `print` output, the verbose flag and `log_level_int`: they have no effect on decisions.
- The webhook envelope (`Records`/SNS JSON decoding, lines 34-44 of `lambda_function.py`) and the GitHub login: the model starts from the decoded message.
- The changed files, current labels, statuses of the last commit, fetched event pages, open pull requests and whether the repository exists are parameters; the network calls that produce them are not modelled.
- A pull request with no commits (`list(pr.commits())[-1]` raising) is not modelled.
- `load_config_file`, the `session` property and `__repr__` of the configuration object: file and network access.
- `parse_bool` and `parse_set` are parameters (`Settings.Parsers`): the helpers module is not part of this model.
- `main`'s option parsing and exit codes; only the overrides it passes are modelled (`Settings.CommandLine`).
- Timestamps are integers, and event ids arrive as integers (`int(event.id)` is not modelled).
- Poller.Poll: takes the `X-Poll-Interval` header as an integer that every page carries; a page without it (where `int(None)` raises on the first poll) is not modelled.
- Glob.Match: shell character classes (`[...]`) are not modelled; `[` and `]` match themselves.
- Strings.ParseInt: Python's `int()` also accepts surrounding whitespace, underscores between digits and non-ASCII digits; those inputs are treated as non-numerals.
- Strings.Lower: ASCII case mapping only.
- The batch run's per-number fetch of a pull request (and `handle_pr(None)` for a number that does not exist) is not modelled; `Tracker.BatchOrder` gives the order in which they are handled.
- Settings.Override: applies the keywords in the sequence it is given. `override(**overrides)` iterates a keyword dictionary, whose order the Pythons that `setup.py` lists (2.7, 3.2-3.4) do not fix. Only `debug` and `log_level` interact, so both of their orders are proved: `Settings.CommandLineDebugWins` and `Settings.CommandLineLevelFirstDebugWins`.
- Strings.Upper: ASCII case mapping only. Python 3 upper-cases some non-ASCII letters to ASCII ones (`'ınfo'.upper() == 'INFO'`); such a level is accepted by the source and rejected by `Settings.SetLogLevel` here.
- Tracker.Monitor: a failing run returns only the error; the calls issued for earlier events are not returned with it.

## Findings

| source | as written | input that shows it | evidently intended | confidence | as-written member | corrected member |
|---|---|---|---|---|---|---|
| landa/__init__.py:191 | the pushed branch is looked up by the text after the ref's last `/` | a push to `refs/heads/feature/x` with open pull requests on `feature/x` and `x`: the one on `x` is relabelled and the one on `feature/x` is not | the branch is everything after `refs/heads/`, as open pull requests are keyed by the full head branch name | high, not executed | Tracker.PushToSlashedBranchMisses | Tracker.PushHandlesItsPullRequest |
| landa/objects.py:20 | `override` only assigns the attributes in `ATTRIBUTES`, which lacks `start_event`, although the documented `--start` option (landa/__init__.py:8) is passed as `start_event` (landa/__init__.py:219) | `landa --start 100 owner/repo`: the configuration keeps `start_event = None`, so the bot starts from the current time instead of event 100 | `start_event` is accepted by `override` and stored as an integer, which the constructor then uses to resume at event 99 (landa/__init__.py:75-77) | high, not executed | Settings.StartOptionIgnored | Settings.CorrectedStartOptionStored |

=== FILE: decision.dfy ===
/** The webhook handler: filters a pull-request message, computes which labels
    the rules want, reconciles them with the labels the pull request carries,
    and picks the commit statuses to create. Calls to the hosting service are
    inputs (`Remote`) and returned intended calls (`Outcome`). */
module Decision {
  import opened Wrappers
  import Strings
  import Glob
  import opened Rules

  /** The parts of a webhook message's `pull_request` object the handler reads. */
  datatype PullRequestInfo = PullRequestInfo(
    author: string,
    baseFullName: string,
    baseBranch: string,
    headBranch: string)

  /** A decoded webhook message; `pullRequest` is `None` when the key is absent. */
  datatype Message = Message(action: Option<string>, pullRequest: Option<PullRequestInfo>)

  /** What the hosting service reports about the pull request. */
  datatype Remote = Remote(
    changedFiles: seq<string>,
    currentLabels: set<string>,
    /** contexts already set on the last commit */
    currentStatuses: set<string>)

  datatype Skip = NotPullRequest | UnhandledAction | UnknownRepository | IgnoredBaseBranch | IgnoredAuthor

  datatype StatusRequest = StatusRequest(context: string, state: string, description: string)

  /** Either the handler stopped early, or these are the calls it issues. */
  datatype Outcome =
    | Skipped(reason: Skip)
    | Handled(replaceLabels: Option<set<string>>, createStatuses: set<StatusRequest>)

  // ---------------------------------------------------------------------------
  // The four label stages

  /** Team stage: a team label is wanted iff the author is in the team. */
  function TeamStage(teams: map<string, seq<string>>, author: string): (t: map<string, bool>)
    ensures t.Keys == teams.Keys
    ensures forall l :: l in t ==> (t[l] <==> author in teams[l])
  {
    map l | l in teams :: author in teams[l]
  }

  /** `any(fnmatch(f, glob) for f in files)` */
  function AnyFileMatches(files: seq<string>, glob: string): (r: bool)
    ensures r <==> exists f :: f in files && Glob.Match(f, glob)
  {
    if |files| == 0 then false
    else
      assert forall f :: f in files <==> f == files[0] || f in files[1..];
      if Glob.Match(files[0], glob) then
        assert files[0] in files;
        true
      else AnyFileMatches(files[1..], glob)
  }

  /** The per-label pattern loop: tries the globs in order and stops at the
      first one that matches some changed file. */
  function FirstGlobHit(globs: seq<string>, files: seq<string>): (r: bool)
    ensures r <==> exists g, f :: g in globs && f in files && Glob.Match(f, g)
  {
    if |globs| == 0 then false
    else
      assert forall g :: g in globs <==> g == globs[0] || g in globs[1..];
      if AnyFileMatches(files, globs[0]) then
        assert globs[0] in globs;
        true
      else FirstGlobHit(globs[1..], files)
  }

  /** Some glob of the rule matches some changed file. */
  ghost predicate FileHit(patterns: FilePatterns, files: seq<string>) {
    exists g, f :: g in patterns.Globs() && f in files && Glob.Match(f, g)
  }

  /** File-pattern stage: OVERWRITES the verdict of every label it configures
      with whether one of its globs matches a changed file. */
  function FileStage(tests: map<string, bool>, rules: map<string, FilePatterns>, files: seq<string>): (t: map<string, bool>)
    ensures t.Keys == tests.Keys + rules.Keys
    ensures forall l :: l in rules ==> (t[l] <==> FileHit(rules[l], files))
    ensures forall l :: l in tests && l !in rules ==> t[l] == tests[l]
  {
    map l | l in tests.Keys + rules.Keys :: if l in rules then FirstGlobHit(rules[l].Globs(), files) else tests[l]
  }

  /** Base- or head-branch stage: a configured label becomes wanted when the
      branch matches its glob, and stays wanted if an earlier stage wanted it. */
  function BranchStage(tests: map<string, bool>, rules: map<string, string>, branch: string): (t: map<string, bool>)
    ensures t.Keys == tests.Keys + rules.Keys
    ensures forall l :: l in tests && tests[l] ==> t[l]
    ensures forall l :: l in rules && Glob.Match(branch, rules[l]) ==> t[l]
    ensures forall l :: l in t && t[l] ==> (l in tests && tests[l]) || (l in rules && Glob.Match(branch, rules[l]))
  {
    map l | l in tests.Keys + rules.Keys ::
      if l in rules then Glob.Match(branch, rules[l]) || (l in tests && tests[l]) else tests[l]
  }

  /** `label_tests` after all four stages. */
  function LabelTests(c: RepoConfig, author: string, files: seq<string>, base: string, head: string): map<string, bool> {
    var team := TeamStage(c.teamLabels, author);
    var file := FileStage(team, c.filePatternLabels, files);
    var onBase := BranchStage(file, c.baseBranchLabels, base);
    BranchStage(onBase, c.headBranchLabels, head)
  }

  /** The labels some stage configures. */
  function Mentioned(c: RepoConfig): set<string> {
    c.teamLabels.Keys + c.filePatternLabels.Keys + c.baseBranchLabels.Keys + c.headBranchLabels.Keys
  }

  /** The rules' verdict on one label, stated directly: a branch rule that
      matches, or else the file rule when there is one, or else the team rule. */
  ghost predicate Wanted(c: RepoConfig, author: string, files: seq<string>, base: string, head: string, l: string) {
    || (l in c.headBranchLabels && Glob.Match(head, c.headBranchLabels[l]))
    || (l in c.baseBranchLabels && Glob.Match(base, c.baseBranchLabels[l]))
    || (if l in c.filePatternLabels then FileHit(c.filePatternLabels[l], files)
        else l in c.teamLabels && author in c.teamLabels[l])
  }

  /** The staged computation decides every mentioned label as `Wanted` says,
      and decides nothing about any other label. */
  lemma LabelTestsFollowRules(c: RepoConfig, author: string, files: seq<string>, base: string, head: string)
    ensures LabelTests(c, author, files, base, head).Keys == Mentioned(c)
    ensures forall l :: l in Mentioned(c) ==>
      (LabelTests(c, author, files, base, head)[l] <==> Wanted(c, author, files, base, head, l))
  {
  }

  /** A team verdict never survives a file rule for the same label: an author
      on the team does not get the label when no file matches. */
  lemma FileRuleOverridesTeam(c: RepoConfig, author: string, files: seq<string>, base: string, head: string, l: string)
    requires l in c.teamLabels && author in c.teamLabels[l]
    requires l in c.filePatternLabels && !FileHit(c.filePatternLabels[l], files)
    requires l !in c.baseBranchLabels && l !in c.headBranchLabels
    ensures !LabelTests(c, author, files, base, head)[l]
  {
  }

  /** A matching base-branch rule (such as `release` plus a star) wants its label whatever the author and files. */
  lemma BaseRuleWantsLabel(c: RepoConfig, author: string, files: seq<string>, base: string, head: string, l: string)
    requires l in c.baseBranchLabels && Glob.Match(base, c.baseBranchLabels[l])
    ensures LabelTests(c, author, files, base, head)[l]
  {
  }

  // ---------------------------------------------------------------------------
  // Reconciliation

  datatype Reconciliation = Reconciliation(toAdd: set<string>, toRemove: set<string>, target: set<string>)

  /** Labels to remove are current labels decided false, labels to add are
      labels decided true that are missing; the target set applies both. */
  function Reconcile(tests: map<string, bool>, current: set<string>): (r: Reconciliation)
    ensures r.toRemove <= current
    ensures r.toAdd !! current
    ensures r.toAdd !! r.toRemove
    ensures forall l :: l !in tests ==> (l in r.target <==> l in current)
    ensures forall l :: l in tests ==> (l in r.target <==> tests[l])
    ensures r.target == current <==> r.toAdd == {} && r.toRemove == {}
  {
    var remove := current * (set l | l in tests && !tests[l]);
    var add := (set l | l in tests && tests[l]) - current;
    var target := (current - remove) + add;
    Reconciliation(add, remove, target)
  }

  /** Reconciling again against the target changes nothing. */
  lemma ReconcileIdempotent(tests: map<string, bool>, current: set<string>)
    ensures var r := Reconcile(tests, current);
      var again := Reconcile(tests, r.target);
      again.target == r.target && again.toAdd == {} && again.toRemove == {}
  {
  }

  // ---------------------------------------------------------------------------
  // Commit statuses

  /** A `pending` status for every configured context not yet on the commit,
      carrying the configured description. */
  function StatusRequests(configured: map<string, string>, existing: set<string>): (r: set<StatusRequest>)
    ensures forall s :: s in r <==>
      s.context in configured && s.context !in existing && s.state == "pending" && s.description == configured[s.context]
  {
    set ctx | ctx in configured && ctx !in existing :: StatusRequest(ctx, "pending", configured[ctx])
  }

  /** Exactly one request per missing context. */
  lemma {:induction false} OneRequestPerMissingContext(configured: map<string, string>, existing: set<string>)
    ensures |StatusRequests(configured, existing)| == |configured.Keys - existing|
  {
    var r := StatusRequests(configured, existing);
    var missing := configured.Keys - existing;
    assert forall ctx :: ctx in missing ==> StatusRequest(ctx, "pending", configured[ctx]) in r;
    ContextsOfRequests(r, missing);
  }

  /** A set of requests with distinct contexts is as large as its set of contexts. */
  lemma {:induction false} ContextsOfRequests(r: set<StatusRequest>, contexts: set<string>)
    requires forall s :: s in r ==> s.context in contexts
    requires forall c :: c in contexts ==> exists s :: s in r && s.context == c
    requires forall s, t :: s in r && t in r && s.context == t.context ==> s == t
    ensures |r| == |contexts|
    decreases r
  {
    if r != {} {
      var s :| s in r;
      ContextsOfRequests(r - {s}, contexts - {s.context});
    }
  }

  /** With `CI` already set and `CI` and `Lint` configured, only `Lint` is created. */
  lemma OnlyMissingStatusCreated()
    ensures StatusRequests(map["CI" := "Continuous integration", "Lint" := "Style check"], {"CI"})
      == {StatusRequest("Lint", "pending", "Style check")}
  {
  }

  // ---------------------------------------------------------------------------
  // The handler

  /** The pre-filter that stops the handler, if any, in the order it checks them. */
  function Filter(registry: map<string, Block>, default: Block, msg: Message): Option<Skip> {
    if msg.pullRequest.None? then Some(NotPullRequest)
    else if msg.action != Some("opened") && msg.action != Some("synchronize") then Some(UnhandledAction)
    else
      var pr := msg.pullRequest.value;
      var key := Strings.Lower(pr.baseFullName);
      if key !in registry then Some(UnknownRepository)
      else
        var c := Resolve(registry[key], default);
        if pr.baseBranch in c.ignoreBaseBranch then Some(IgnoredBaseBranch)
        else if pr.author in c.ignoreLogin then Some(IgnoredAuthor)
        else None
  }

  /** One webhook message handled end to end. In a dry run the decisions are
      made but no mutating call is issued. */
  function Handle(registry: map<string, Block>, default: Block, msg: Message, remote: Remote, dryRun: bool): (o: Outcome)
    ensures o.Skipped? <==> Filter(registry, default, msg).Some?
    ensures o.Skipped? ==> o.reason == Filter(registry, default, msg).value
    ensures o.Handled? ==> msg.pullRequest.Some? && Strings.Lower(msg.pullRequest.value.baseFullName) in registry
    ensures o.Handled? && o.replaceLabels.Some? ==> !dryRun && o.replaceLabels.value != remote.currentLabels
    ensures o.Handled? && o.replaceLabels.Some? ==> o.replaceLabels.value - remote.currentLabels <= Mentioned(Config(registry, default, msg))
    ensures o.Handled? && o.replaceLabels.Some? ==> remote.currentLabels - o.replaceLabels.value <= Mentioned(Config(registry, default, msg))
    ensures o.Handled? && dryRun ==> o.replaceLabels.None? && o.createStatuses == {}
    ensures o.Handled? ==> forall s :: s in o.createStatuses ==> s.context !in remote.currentStatuses && s.state == "pending"
    // outside a dry run the labels are replaced exactly when some mentioned
    // label's presence disagrees with the rules, and then every mentioned
    // label is present iff the rules want it
    ensures o.Handled? && !dryRun ==>
              var c := Config(registry, default, msg);
              var pr := msg.pullRequest.value;
              (o.replaceLabels.None? <==>
                 forall l :: l in Mentioned(c) ==>
                   (l in remote.currentLabels <==> Wanted(c, pr.author, remote.changedFiles, pr.baseBranch, pr.headBranch, l)))
    ensures o.Handled? && o.replaceLabels.Some? ==>
              var c := Config(registry, default, msg);
              var pr := msg.pullRequest.value;
              forall l :: l in Mentioned(c) ==>
                (l in o.replaceLabels.value <==> Wanted(c, pr.author, remote.changedFiles, pr.baseBranch, pr.headBranch, l))
    // and every configured context missing on the commit gets its status
    ensures o.Handled? && !dryRun ==>
              o.createStatuses == StatusRequests(Config(registry, default, msg).commitStatus, remote.currentStatuses)
  {
    match Filter(registry, default, msg)
    case Some(reason) => Skipped(reason)
    case None =>
      var pr := msg.pullRequest.value;
      var c := Resolve(registry[Strings.Lower(pr.baseFullName)], default);
      var tests := LabelTests(c, pr.author, remote.changedFiles, pr.baseBranch, pr.headBranch);
      LabelTestsFollowRules(c, pr.author, remote.changedFiles, pr.baseBranch, pr.headBranch);
      var plan := Reconcile(tests, remote.currentLabels);
      var replace := if plan.target != remote.currentLabels && !dryRun then Some(plan.target) else None;
      var statuses := if |c.commitStatus| > 0 && !dryRun then StatusRequests(c.commitStatus, remote.currentStatuses) else {};
      Handled(replace, statuses)
  }

  /** The resolved rules of the message's repository (empty when the message
      names no monitored repository). */
  function Config(registry: map<string, Block>, default: Block, msg: Message): RepoConfig {
    if msg.pullRequest.Some? && Strings.Lower(msg.pullRequest.value.baseFullName) in registry
    then Resolve(registry[Strings.Lower(msg.pullRequest.value.baseFullName)], default)
    else EmptyRepoConfig
  }

  /** The handler stops early exactly in the five filtered cases. */
  lemma SkipsExactlyWhenFiltered(registry: map<string, Block>, default: Block, msg: Message, remote: Remote, dryRun: bool)
    ensures Handle(registry, default, msg, remote, dryRun).Skipped? <==>
      || msg.pullRequest.None?
      || msg.action !in {Some("opened"), Some("synchronize")}
      || Strings.Lower(msg.pullRequest.value.baseFullName) !in registry
      || msg.pullRequest.value.baseBranch in Config(registry, default, msg).ignoreBaseBranch
      || msg.pullRequest.value.author in Config(registry, default, msg).ignoreLogin
  {
  }

  /** Handling the same message again, after the first run's calls took
      effect, issues no call at all. */
  lemma SecondRunIssuesNothing(registry: map<string, Block>, default: Block, msg: Message, remote: Remote)
    requires Handle(registry, default, msg, remote, false).Handled?
    ensures var first := Handle(registry, default, msg, remote, false);
      var labels := first.replaceLabels.GetOr(remote.currentLabels);
      var statuses := remote.currentStatuses + (set s | s in first.createStatuses :: s.context);
      Handle(registry, default, msg, Remote(remote.changedFiles, labels, statuses), false)
        == Handled(None, {})
  {
  }
}

=== FILE: errors.dfy ===
/** The exceptions the modelled code raises: its own `LandaException` and the
    Python built-in errors that escape from the validated setters. */
module Errors {

  datatype Error =
    | LandaException(message: string)
    /** reading an attribute that was never assigned, or calling a string
        method on a value that is not a string */
    | AttributeError(name: string)
    /** `int(...)` of text that is not a decimal numeral */
    | ValueError(text: string)
    /** `int(...)` of a value that is neither a number nor text */
    | TypeError(attr: string)
    /** a failed `assert` statement */
    | AssertionError
}

=== FILE: events.dfy ===
/** The repository events the command-line bot consumes, and the pull
    requests they carry. */
module Events {

  /** A pull request as the bot reads it. */
  datatype PullRequest = PullRequest(
    number: int,
    author: string,
    /** name of the head branch */
    headRef: string,
    /** names of the changed files */
    files: seq<string>)

  /** An event's type with its payload; every type other than the two the
      bot handles is `OtherEvent`, so its `typeName` is never
      `"PullRequestEvent"` or `"PushEvent"`. */
  datatype EventKind =
    | PullRequestEvent(action: string, pr: PullRequest)
    | PushEvent(ref: string)
    | OtherEvent(typeName: string)

  /** One entry of the repository's event feed; `created` is a timestamp. */
  datatype Event = Event(id: int, created: int, kind: EventKind)

  /** The event types the bot keeps. */
  predicate Relevant(e: Event) {
    e.kind.PullRequestEvent? || e.kind.PushEvent?
  }
}

=== FILE: glob.dfy ===
/** Shell-style glob matching as `fnmatch` does it for the patterns this bot is
    configured with: `*` matches any run of characters, path separators
    included, `?` matches exactly one character, and every other character
    matches itself. The whole name must match. */
module Glob {
  import Strings

  /** Decides whether `name` matches `pattern`. A `*` either matches nothing
      more or swallows one more character of the name. */
  function Match(name: string, pattern: string): bool
    decreases |pattern|, |name|
  {
    if |pattern| == 0 then |name| == 0
    else if pattern[0] == '*' then
      Match(name, pattern[1..]) || (|name| > 0 && Match(name[1..], pattern))
    else
      |name| > 0 && (pattern[0] == '?' || pattern[0] == name[0]) && Match(name[1..], pattern[1..])
  }

  /** The language of a glob: the names it stands for, with `*` choosing the
      length of the run it covers. */
  ghost predicate InLanguage(name: string, pattern: string)
    decreases |pattern|
  {
    if |pattern| == 0 then |name| == 0
    else if pattern[0] == '*' then
      exists k :: 0 <= k <= |name| && InLanguage(name[k..], pattern[1..])
    else
      |name| > 0 && (pattern[0] == '?' || pattern[0] == name[0]) && InLanguage(name[1..], pattern[1..])
  }

  /** The matcher decides exactly the language of the pattern. */
  lemma {:induction false} MatchIsLanguage(name: string, pattern: string)
    ensures Match(name, pattern) <==> InLanguage(name, pattern)
    decreases |pattern|, |name|
  {
    if |pattern| == 0 {
    } else if pattern[0] == '*' {
      MatchIsLanguage(name, pattern[1..]);
      if |name| > 0 {
        MatchIsLanguage(name[1..], pattern);
      }
      if Match(name, pattern) {
        if !Match(name, pattern[1..]) {
          var k :| 0 <= k <= |name[1..]| && InLanguage(name[1..][k..], pattern[1..]);
          assert name[1..][k..] == name[k + 1..];
        } else {
          assert name[0..] == name;
        }
      }
      if InLanguage(name, pattern) {
        var k :| 0 <= k <= |name| && InLanguage(name[k..], pattern[1..]);
        if k == 0 {
          assert name[0..] == name;
        } else {
          assert name[1..][k - 1..] == name[k..];
          assert InLanguage(name[1..], pattern);
        }
      }
    } else if |name| > 0 {
      MatchIsLanguage(name[1..], pattern[1..]);
    }
  }

  predicate HasWildcard(pattern: string) {
    '*' in pattern || '?' in pattern
  }

  /** A pattern without wildcards matches only itself. */
  lemma {:induction false} LiteralMatchesItself(name: string, pattern: string)
    requires !HasWildcard(pattern)
    ensures Match(name, pattern) <==> name == pattern
    decreases |pattern|
  {
    if |pattern| > 0 {
      assert pattern[0] in pattern;
      assert !HasWildcard(pattern[1..]) by {
        assert forall c :: c in pattern[1..] ==> c in pattern;
      }
      if |name| > 0 {
        LiteralMatchesItself(name[1..], pattern[1..]);
        if name[1..] == pattern[1..] && name[0] == pattern[0] {
          assert name == [name[0]] + name[1..];
          assert pattern == [pattern[0]] + pattern[1..];
        }
      }
    }
  }

  /** A lone `*` matches every name. */
  lemma {:induction false} StarMatchesAll(name: string)
    ensures Match(name, "*")
    decreases |name|
  {
    if |name| > 0 {
      StarMatchesAll(name[1..]);
    }
  }

  /** `prefix*` for a wildcard-free prefix matches exactly the names that
      start with that prefix, however many path segments follow it. */
  lemma {:induction false} PrefixStar(name: string, prefix: string)
    requires !HasWildcard(prefix)
    ensures Match(name, prefix + "*") <==> Strings.StartsWith(name, prefix)
    decreases |prefix|
  {
    if |prefix| == 0 {
      assert prefix + "*" == "*";
      StarMatchesAll(name);
    } else {
      var p := prefix + "*";
      assert prefix[0] in prefix;
      assert p[0] == prefix[0] && p[1..] == prefix[1..] + "*";
      assert !HasWildcard(prefix[1..]) by {
        assert forall c :: c in prefix[1..] ==> c in prefix;
      }
      if |name| > 0 {
        PrefixStar(name[1..], prefix[1..]);
        if Strings.StartsWith(name[1..], prefix[1..]) && name[0] == prefix[0] {
          assert name[..|prefix|] == [name[0]] + name[1..][..|prefix| - 1];
          assert prefix == [prefix[0]] + prefix[1..];
        }
        if Strings.StartsWith(name, prefix) {
          assert name[1..][..|prefix| - 1] == name[..|prefix|][1..];
        }
      }
    }
  }

  /** The directory glob "db/" followed by a star reaches into nested
      directories, but not into other paths that merely contain `db`. */
  lemma DirectoryGlobExamples()
    ensures Match("db/migrate/001.rb", "db/*")
    ensures !Match("lib/db.rb", "db/*")
  {
    assert !HasWildcard("db/");
    assert "db/" + "*" == "db/*";
    PrefixStar("db/migrate/001.rb", "db/");
    PrefixStar("lib/db.rb", "db/");
    assert "db/migrate/001.rb"[..3] == "db/";
  }
}

=== FILE: poller.dfy ===
/** The event cursor: walking one newest-first page of the repository's event
    feed, and the polling loop that carries the high-water mark and the cache
    token from one page to the next. Sleeping and the network are left to the
    caller: a poll reports how long it slept and receives the fetched page. */
module Poller {
  import opened Wrappers
  import opened Errors
  import opened Events
  import Seqs

  /** Where to stop walking: at the high-water mark (resume mode) or at the
      session's start time (fresh mode). */
  datatype Cursor = Cursor(lastEventId: Option<int>, startTime: Option<int>)

  /** Python truthiness of an optional integer: `None` and `0` are false. */
  predicate Truthy(o: Option<int>) {
    o.Some? && o.value != 0
  }

  /** The cursor a session starts from: resuming just below a given event id,
      or watching from `now`. A start id of 0 counts as none. */
  function InitCursor(startEvent: Option<int>, now: int): (c: Cursor)
    ensures Truthy(startEvent) ==> c.startTime.None? && c.lastEventId == Some(startEvent.value - 1)
    ensures !Truthy(startEvent) ==> c.startTime == Some(now) && c.lastEventId.None?
  {
    if Truthy(startEvent) then Cursor(Some(startEvent.value - 1), None)
    else Cursor(None, Some(now))
  }

  /** Walking stops at an event already seen or older than the session. A
      high-water mark of 0 filters nothing. */
  predicate Stops(e: Event, c: Cursor) {
    || (Truthy(c.lastEventId) && e.id <= c.lastEventId.value)
    || (c.startTime.Some? && e.created < c.startTime.value)
  }

  /** Resuming from event `s` walks exactly the events from `s` on, except
      that resuming from 1 gives the mark 0, which filters nothing. */
  lemma ResumeFromStartEvent(s: int, now: int, e: Event)
    requires s != 0
    ensures s != 1 ==> (Stops(e, InitCursor(Some(s), now)) <==> e.id < s)
    ensures s == 1 ==> !Stops(e, InitCursor(Some(s), now))
  {
  }

  /** A fresh session walks exactly the events created since it started. */
  lemma FreshFromNow(now: int, e: Event)
    ensures Stops(e, InitCursor(None, now)) <==> e.created < now
  {
  }

  /** Length of the walked prefix of a page: up to the first stopping event. */
  function StopIndex(page: seq<Event>, c: Cursor): (k: nat)
    ensures k <= |page|
    ensures forall i :: 0 <= i < k ==> !Stops(page[i], c)
    ensures k < |page| ==> Stops(page[k], c)
  {
    if |page| == 0 || Stops(page[0], c) then 0 else 1 + StopIndex(page[1..], c)
  }

  /** `newest_id` after walking `walked`: each event replaces a value that is
      still `None` or `0` with its own id. */
  function Newest(walked: seq<Event>): (r: Option<int>)
    ensures r.None? <==> |walked| == 0
    ensures |walked| > 0 && walked[0].id != 0 ==> r == Some(walked[0].id)
    ensures Truthy(r) ==> (exists i :: 0 <= i < |walked| && walked[i].id == r.value
                             && forall j :: 0 <= j < i ==> walked[j].id == 0)
    ensures r.Some? && r.value == 0 ==> forall i :: 0 <= i < |walked| ==> walked[i].id == 0
  {
    if |walked| == 0 then None
    else
      var init := walked[..|walked| - 1];
      var prev := Newest(init);
      assert forall i :: 0 <= i < |init| ==> init[i] == walked[i];
      if Truthy(prev) then prev else Some(walked[|walked| - 1].id)
  }

  /** What walking a page yields: the relevant walked events, oldest first,
      and the newest id walked. */
  function Walk(page: seq<Event>, c: Cursor): (seq<Event>, Option<int>) {
    Walked(page[..StopIndex(page, c)])
  }

  /** The events kept and the newest id after walking `walked`. */
  function Walked(walked: seq<Event>): (seq<Event>, Option<int>) {
    (Seqs.Reverse(Seqs.Filter(walked, Relevant)), Newest(walked))
  }

  /** One iteration of the loop body on event `e`. */
  function WalkStep(e: Event, kept: (seq<Event>, Option<int>)): (seq<Event>, Option<int>) {
    ((if Relevant(e) then [e] else []) + kept.0, if Truthy(kept.1) then kept.1 else Some(e.id))
  }

  /** The page walk as a loop: each walked event updates the newest id and,
      when relevant, is put in front of the events kept so far. */
  method EventLoop(page: seq<Event>, c: Cursor) returns (events: seq<Event>, newest: Option<int>)
    ensures (events, newest) == Walk(page, c)
    ensures forall e :: e in events ==> Relevant(e) && !Stops(e, c) && e in page
  {
    events := [];
    newest := None;
    var i := 0;
    while i < |page| && !Stops(page[i], c)
      invariant 0 <= i <= StopIndex(page, c)
      invariant (events, newest) == Walked(page[..i])
    {
      WalkOneMore(page, i);
      var e := page[i];
      ghost var step := WalkStep(e, (events, newest));
      if !Truthy(newest) {
        newest := Some(e.id);
      }
      if Relevant(e) {
        events := [e] + events;
      }
      assert events == step.0 && newest == step.1;
      i := i + 1;
    }
    assert i == StopIndex(page, c);
    WalkYieldsWalkedRelevant(page, c);
  }

  /** Walking one more event: it goes in front of the kept events when
      relevant, and sets the newest id unless one is already set. */
  lemma WalkOneMore(page: seq<Event>, i: nat)
    requires i < |page|
    ensures Walked(page[..i + 1]) == WalkStep(page[i], Walked(page[..i]))
  {
    assert page[..i + 1] == page[..i] + [page[i]];
    assert page[..i + 1][..i] == page[..i];
    Seqs.FilterSnoc(page[..i], page[i], Relevant);
    var before := Seqs.Filter(page[..i], Relevant);
    if Relevant(page[i]) {
      var kept := before + [page[i]];
      assert kept[..|kept| - 1] == before;
      assert Seqs.Reverse(kept) == [page[i]] + Seqs.Reverse(before);
    } else {
      assert Seqs.Filter(page[..i + 1], Relevant) == before;
    }
    assert Walked(page[..i + 1]).0 == WalkStep(page[i], Walked(page[..i])).0;
    assert Newest(page[..i + 1]) == (if Truthy(Newest(page[..i])) then Newest(page[..i]) else Some(page[i].id));
  }

  /** The walked prefix is the longest one in which no event stops the walk. */
  lemma StopIndexIs(page: seq<Event>, c: Cursor, k: nat)
    requires k <= |page|
    requires forall j :: 0 <= j < k ==> !Stops(page[j], c)
    requires k < |page| ==> Stops(page[k], c)
    ensures StopIndex(page, c) == k
  {
  }

  /** A walk yields only relevant events of the page that do not stop it. */
  lemma WalkYieldsWalkedRelevant(page: seq<Event>, c: Cursor)
    ensures forall e :: e in Walk(page, c).0 ==> Relevant(e) && !Stops(e, c) && e in page
  {
    var walked := page[..StopIndex(page, c)];
    var kept := Seqs.Filter(walked, Relevant);
    forall e | e in Walk(page, c).0
      ensures Relevant(e) && !Stops(e, c) && e in page
    {
      var i :| 0 <= i < |kept| && Seqs.Reverse(kept)[i] == e;
      assert e in kept;
      assert e in walked;
    }
  }

  // ---------------------------------------------------------------------------
  // The polling loop

  /** The loop's state between polls: the cursor, the cache token to send,
      and how long to sleep before the next fetch. */
  datatype PollState = PollState(cursor: Cursor, etag: Option<string>, sleep: Option<int>)

  const EnterError := LandaException("Can only enter `events` once.")

  /** Entering the event stream: allowed once per bot. Entering marks the
      bot as running and starts with no token and no pending sleep. */
  function Enter(running: bool, c: Cursor): (r: Result<(bool, PollState), Error>)
    ensures running <==> r.Failure?
    ensures r.Failure? ==> r.error == EnterError
    ensures r.Success? ==> r.value.0 && r.value.1 == PollState(c, None, None)
  {
    if running then Failure(EnterError)
    else Success((true, PollState(c, None, None)))
  }

  /** Whatever the cursor, a second entry into the event stream fails. */
  lemma SecondEnterFails(running: bool, c: Cursor, c': Cursor)
    ensures var first := Enter(running, c);
      first.Success? ==> Enter(first.value.0, c') == Failure(EnterError)
  {
  }

  /** The outcome of one fetch: a connection failure, or a newest-first page
      with its cache token and the poll interval the server asks for. */
  datatype Fetch = ConnectionError | Page(events: seq<Event>, etag: Option<string>, pollInterval: int)

  /** One iteration: how long it slept first, the token it sent, the state it
      leaves, and the events it yields, oldest first. */
  datatype Step = Step(slept: Option<int>, sentEtag: Option<string>, next: PollState, yielded: seq<Event>)

  function Poll(s: PollState, f: Fetch): (st: Step)
    // sleeping only happens when a previous iteration asked for it
    ensures st.slept.Some? <==> Truthy(s.sleep)
    ensures st.slept.Some? ==> st.slept == s.sleep
    ensures st.sentEtag == s.etag
    // a connection error loses nothing and retries after one second
    ensures f.ConnectionError? ==>
      st.next == PollState(s.cursor, s.etag, Some(1)) && st.yielded == []
    ensures f.Page? ==> st.next.etag == f.etag && st.next.sleep == Some(f.pollInterval)
    ensures st.next.cursor.startTime == s.cursor.startTime
    // a page yields the walked relevant events, oldest first, and moves the
    // mark to the newest walked id unless that is missing or zero
    ensures f.Page? ==> st.yielded == Walk(f.events, s.cursor).0
    ensures f.Page? ==>
              st.next.cursor.lastEventId ==
                (if Truthy(Walk(f.events, s.cursor).1) then Walk(f.events, s.cursor).1 else s.cursor.lastEventId)
    ensures f.Page? && Truthy(s.cursor.lastEventId) && Truthy(Walk(f.events, s.cursor).1) ==>
              st.next.cursor.lastEventId.value > s.cursor.lastEventId.value
    // the high-water mark never regresses
    ensures Truthy(s.cursor.lastEventId) ==>
              && Truthy(st.next.cursor.lastEventId)
              && st.next.cursor.lastEventId.value >= s.cursor.lastEventId.value
    ensures forall e :: e in st.yielded ==> Relevant(e) && !Stops(e, s.cursor)
  {
    var slept := if Truthy(s.sleep) then s.sleep else None;
    match f
    case ConnectionError => Step(slept, s.etag, PollState(s.cursor, s.etag, Some(1)), [])
    case Page(page, etag, interval) =>
      var (events, newest) := Walk(page, s.cursor);
      var walked := page[..StopIndex(page, s.cursor)];
      assert forall e :: e in events ==> e in walked;
      assert Truthy(newest) ==> exists i :: 0 <= i < |walked| && walked[i].id == newest.value;
      var last := if Truthy(newest) then newest else s.cursor.lastEventId;
      Step(slept, s.etag, PollState(Cursor(last, s.cursor.startTime), etag, Some(interval)), events)
  }

  /** After a connection error the next iteration sleeps one second and
      sends the same token again. */
  lemma RetryAfterOneSecond(s: PollState, f: Fetch)
    ensures var retry := Poll(Poll(s, ConnectionError).next, f);
      retry.slept == Some(1) && retry.sentEtag == s.etag
  {
  }

  /** A session's polls in order, and all the events they yielded. */
  function Run(s: PollState, fetches: seq<Fetch>): (PollState, seq<Event>) {
    if |fetches| == 0 then (s, [])
    else
      var (mid, earlier) := Run(s, fetches[..|fetches| - 1]);
      var st := Poll(mid, fetches[|fetches| - 1]);
      (st.next, earlier + st.yielded)
  }

  /** A page as the feed serves it: newest first, positive ids. */
  ghost predicate NewestFirst(page: seq<Event>) {
    && (forall i :: 0 <= i < |page| ==> page[i].id > 0)
    && (forall i, j :: 0 <= i < j < |page| ==> page[j].id < page[i].id)
  }

  ghost predicate IncreasingIds(events: seq<Event>) {
    forall i, j :: 0 <= i < j < |events| ==> events[i].id < events[j].id
  }

  /** Filtering keeps the relative order of the kept events. */
  lemma {:induction false} FilterKeepsNewestFirst(s: seq<Event>)
    requires NewestFirst(s)
    ensures NewestFirst(Seqs.Filter(s, Relevant))
  {
    if |s| > 0 {
      var init := s[..|s| - 1];
      assert forall i :: 0 <= i < |init| ==> init[i] == s[i];
      FilterKeepsNewestFirst(init);
      var f := Seqs.Filter(init, Relevant);
      forall e | e in f
        ensures e.id > s[|s| - 1].id
      {
        var i :| 0 <= i < |init| && init[i] == e;
      }
    }
  }

  /** What the session has yielded so far is increasing, and bounded by the
      high-water mark once anything was yielded. */
  ghost predicate SessionInvariant(yielded: seq<Event>, s: PollState) {
    && IncreasingIds(yielded)
    && (|yielded| > 0 ==>
          && Truthy(s.cursor.lastEventId)
          && forall e :: e in yielded ==> e.id <= s.cursor.lastEventId.value)
  }

  /** Reversing a newest-first sequence gives increasing ids. */
  lemma ReverseIsIncreasing(s: seq<Event>)
    requires NewestFirst(s)
    ensures IncreasingIds(Seqs.Reverse(s))
  {
  }

  lemma ConcatIncreasing(a: seq<Event>, b: seq<Event>)
    requires IncreasingIds(a) && IncreasingIds(b)
    requires forall x, y :: x in a && y in b ==> x.id < y.id
    ensures IncreasingIds(a + b)
  {
  }

  /** The events one page yields are increasing, newer than the old mark
      and no newer than the new one. */
  lemma PageYield(s: PollState, page: seq<Event>, etag: Option<string>, interval: int)
    requires NewestFirst(page)
    ensures var st := Poll(s, Page(page, etag, interval));
      && IncreasingIds(st.yielded)
      && (|st.yielded| > 0 ==>
            && Truthy(st.next.cursor.lastEventId)
            && forall e :: e in st.yielded ==> e.id <= st.next.cursor.lastEventId.value)
  {
    var st := Poll(s, Page(page, etag, interval));
    var walked := page[..StopIndex(page, s.cursor)];
    assert NewestFirst(walked);
    FilterKeepsNewestFirst(walked);
    var kept := Seqs.Filter(walked, Relevant);
    ReverseIsIncreasing(kept);
    if |walked| > 0 {
      assert st.next.cursor.lastEventId == Some(walked[0].id);
      forall e | e in st.yielded
        ensures e.id <= walked[0].id
      {
        assert e in kept;
        assert e in walked;
      }
    }
  }

  /** One poll on a newest-first page keeps the invariant. */
  lemma PollKeepsInvariant(yielded: seq<Event>, s: PollState, f: Fetch)
    requires SessionInvariant(yielded, s)
    requires f.Page? ==> NewestFirst(f.events)
    ensures var st := Poll(s, f); SessionInvariant(yielded + st.yielded, st.next)
  {
    if f.Page? {
      var st := Poll(s, f);
      PageYield(s, f.events, f.etag, f.pollInterval);
      ConcatIncreasing(yielded, st.yielded);
    }
  }

  /** Within one session no event is yielded twice, and ids only grow. */
  lemma {:induction false} SessionYieldsIncreasingIds(s: PollState, fetches: seq<Fetch>)
    requires forall i :: 0 <= i < |fetches| && fetches[i].Page? ==> NewestFirst(fetches[i].events)
    ensures SessionInvariant(Run(s, fetches).1, Run(s, fetches).0)
    ensures IncreasingIds(Run(s, fetches).1)
  {
    if |fetches| > 0 {
      var init := fetches[..|fetches| - 1];
      SessionYieldsIncreasingIds(s, init);
      var (mid, earlier) := Run(s, init);
      PollKeepsInvariant(earlier, mid, fetches[|fetches| - 1]);
    }
  }
}

=== FILE: rules.dfy ===
/** The bot's rule configuration as the webhook handler sees it: a registry of
    per-repository rule blocks keyed by lower-cased `owner/name`, one default
    block, and the built-in all-empty block, consulted in that order. */
module Rules {
  import opened Wrappers
  import Strings
  import Seqs

  /** A file-pattern rule is configured either as one glob or as a list. */
  datatype FilePatterns = OneGlob(glob: string) | GlobList(globs: seq<string>) {
    /** A bare glob behaves as the one-element list holding it. */
    function Globs(): seq<string> {
      match this
      case OneGlob(g) => [g]
      case GlobList(gs) => gs
    }
  }

  /** A rule block as written in the configuration: any key may be absent. */
  datatype Block = Block(
    ignoreLogin: Option<seq<string>>,
    ignoreBaseBranch: Option<seq<string>>,
    teamLabels: Option<map<string, seq<string>>>,
    filePatternLabels: Option<map<string, FilePatterns>>,
    baseBranchLabels: Option<map<string, string>>,
    headBranchLabels: Option<map<string, string>>,
    commitStatus: Option<map<string, string>>)

  /** The merged view of one repository's rules: every key has a value. */
  datatype RepoConfig = RepoConfig(
    ignoreLogin: seq<string>,
    ignoreBaseBranch: seq<string>,
    /** label -> logins of the team */
    teamLabels: map<string, seq<string>>,
    /** label -> globs over changed file names */
    filePatternLabels: map<string, FilePatterns>,
    /** label -> glob over the base branch name */
    baseBranchLabels: map<string, string>,
    /** label -> glob over the head branch name */
    headBranchLabels: map<string, string>,
    /** status context -> description */
    commitStatus: map<string, string>)

  /** The built-in last layer: every key present and empty. */
  const EmptyRepoConfig: RepoConfig := RepoConfig([], [], map[], map[], map[], map[], map[])

  /** A chained lookup of one key: the value from the first layer that holds it. */
  function ChainLookup<T>(layers: seq<Option<T>>): (r: Option<T>)
    ensures r.Some? <==> exists i :: 0 <= i < |layers| && layers[i].Some?
    ensures r.Some? ==> exists i :: 0 <= i < |layers| && layers[i] == r && forall j :: 0 <= j < i ==> layers[j].None?
  {
    if |layers| == 0 then None
    else if layers[0].Some? then layers[0]
    else
      var r := ChainLookup(layers[1..]);
      assert forall i :: 1 <= i < |layers| ==> layers[i] == layers[1..][i - 1];
      r
  }

  /** `r` is what a repository layer, a default layer and an always-present
      empty layer give for one key, most specific first. */
  ghost predicate FromLayers<T>(r: T, repo: Option<T>, default: Option<T>, empty: T) {
    || (repo.Some? && r == repo.value)
    || (repo.None? && default.Some? && r == default.value)
    || (repo.None? && default.None? && r == empty)
  }

  /** One key looked up through the three-level chain. */
  function Layered<T>(repo: Option<T>, default: Option<T>, empty: T): (r: T)
    ensures FromLayers(r, repo, default, empty)
  {
    var layers := [repo, default, Some(empty)];
    var found := ChainLookup(layers);
    assert found.Some? && FromLayers(found.value, repo, default, empty) by {
      assert layers[2].Some?;
      var i :| 0 <= i < |layers| && layers[i] == found && forall j :: 0 <= j < i ==> layers[j].None?;
      assert layers[0] == repo && layers[1] == default && layers[2] == Some(empty);
      if i == 2 {
        assert layers[0].None? && layers[1].None?;
      }
    }
    found.value
  }

  /** The merged rules of a repository: each key from its own block when the
      block sets it, else from the default block, else empty. */
  function Resolve(repo: Block, default: Block): (c: RepoConfig)
    ensures FromLayers(c.ignoreLogin, repo.ignoreLogin, default.ignoreLogin, [])
    ensures FromLayers(c.ignoreBaseBranch, repo.ignoreBaseBranch, default.ignoreBaseBranch, [])
    ensures FromLayers(c.teamLabels, repo.teamLabels, default.teamLabels, map[])
    ensures FromLayers(c.filePatternLabels, repo.filePatternLabels, default.filePatternLabels, map[])
    ensures FromLayers(c.baseBranchLabels, repo.baseBranchLabels, default.baseBranchLabels, map[])
    ensures FromLayers(c.headBranchLabels, repo.headBranchLabels, default.headBranchLabels, map[])
    ensures FromLayers(c.commitStatus, repo.commitStatus, default.commitStatus, map[])
  {
    RepoConfig(
      Layered(repo.ignoreLogin, default.ignoreLogin, EmptyRepoConfig.ignoreLogin),
      Layered(repo.ignoreBaseBranch, default.ignoreBaseBranch, EmptyRepoConfig.ignoreBaseBranch),
      Layered(repo.teamLabels, default.teamLabels, EmptyRepoConfig.teamLabels),
      Layered(repo.filePatternLabels, default.filePatternLabels, EmptyRepoConfig.filePatternLabels),
      Layered(repo.baseBranchLabels, default.baseBranchLabels, EmptyRepoConfig.baseBranchLabels),
      Layered(repo.headBranchLabels, default.headBranchLabels, EmptyRepoConfig.headBranchLabels),
      Layered(repo.commitStatus, default.commitStatus, EmptyRepoConfig.commitStatus))
  }

  /** The repository block that sets no key. */
  const NoKeys := Block(None, None, None, None, None, None, None)

  /** An empty repository block defers every key to the default block: it
      resolves as if the default block were the repository's own. Two empty
      blocks give the all-empty configuration. */
  lemma EmptyBlocksFallThrough(default: Block)
    ensures Resolve(NoKeys, NoKeys) == EmptyRepoConfig
    ensures Resolve(NoKeys, default) == Resolve(default, NoKeys)
  {
    EmptyBlocksGiveEmpty();
    EmptyBlockDefers(default);
  }

  /** Under an empty repository block, each key the default block sets is
      taken from it. */
  lemma EmptyBlockTakesDefaultKeys(default: Block)
    ensures default.ignoreLogin.Some? ==> Resolve(NoKeys, default).ignoreLogin == default.ignoreLogin.value
    ensures default.ignoreBaseBranch.Some? ==> Resolve(NoKeys, default).ignoreBaseBranch == default.ignoreBaseBranch.value
    ensures default.teamLabels.Some? ==> Resolve(NoKeys, default).teamLabels == default.teamLabels.value
    ensures default.filePatternLabels.Some? ==> Resolve(NoKeys, default).filePatternLabels == default.filePatternLabels.value
    ensures default.baseBranchLabels.Some? ==> Resolve(NoKeys, default).baseBranchLabels == default.baseBranchLabels.value
    ensures default.headBranchLabels.Some? ==> Resolve(NoKeys, default).headBranchLabels == default.headBranchLabels.value
    ensures default.commitStatus.Some? ==> Resolve(NoKeys, default).commitStatus == default.commitStatus.value
  {
    var r := Resolve(NoKeys, default);
    if default.ignoreLogin.Some? {
      FromDefaultLayer(r.ignoreLogin, default.ignoreLogin, []);
    }
    if default.ignoreBaseBranch.Some? {
      FromDefaultLayer(r.ignoreBaseBranch, default.ignoreBaseBranch, []);
    }
    if default.teamLabels.Some? {
      FromDefaultLayer(r.teamLabels, default.teamLabels, map[]);
    }
    if default.filePatternLabels.Some? {
      FromDefaultLayer(r.filePatternLabels, default.filePatternLabels, map[]);
    }
    if default.baseBranchLabels.Some? {
      FromDefaultLayer(r.baseBranchLabels, default.baseBranchLabels, map[]);
    }
    if default.headBranchLabels.Some? {
      FromDefaultLayer(r.headBranchLabels, default.headBranchLabels, map[]);
    }
    if default.commitStatus.Some? {
      FromDefaultLayer(r.commitStatus, default.commitStatus, map[]);
    }
  }

  /** With no repository value, a key the default layer sets comes from it. */
  lemma FromDefaultLayer<T>(r: T, default: Option<T>, empty: T)
    requires FromLayers(r, None, default, empty) && default.Some?
    ensures r == default.value
  {
  }

  lemma EmptyBlocksGiveEmpty()
    ensures Resolve(NoKeys, NoKeys) == EmptyRepoConfig
  {
    var r := Resolve(NoKeys, NoKeys);
    assert r.ignoreLogin == [] && r.ignoreBaseBranch == [];
    assert r.teamLabels == map[] && r.filePatternLabels == map[];
    assert r.baseBranchLabels == map[] && r.headBranchLabels == map[] && r.commitStatus == map[];
  }

  lemma EmptyBlockDefers(default: Block)
    ensures Resolve(NoKeys, default) == Resolve(default, NoKeys)
  {
  }

  /** The registry as loaded: the configured entries, in order, re-keyed by
      their lower-cased names; of two names that differ only in case, the
      later entry wins. */
  function Registry(entries: seq<(string, Block)>): (r: map<string, Block>)
    ensures r.Keys == set i | 0 <= i < |entries| :: Strings.Lower(entries[i].0)
    ensures forall i :: 0 <= i < |entries| && LastOfItsName(entries, i) ==> r[Strings.Lower(entries[i].0)] == entries[i].1
  {
    var lowered := seq(|entries|, i requires 0 <= i < |entries| => (Strings.Lower(entries[i].0), entries[i].1));
    var r := Seqs.LastWins(lowered);
    Seqs.LastWinsKeys(lowered);
    Seqs.LastWinsValues(lowered);
    assert forall i :: 0 <= i < |entries| ==> lowered[i].0 == Strings.Lower(entries[i].0);
    assert (set i | 0 <= i < |lowered| :: lowered[i].0) == set i | 0 <= i < |entries| :: Strings.Lower(entries[i].0);
    assert forall i :: 0 <= i < |entries| && LastOfItsName(entries, i) ==> Seqs.IsLastFor(lowered, i);
    r
  }

  /** No later entry has the same name as entry `i` up to case. */
  ghost predicate LastOfItsName(entries: seq<(string, Block)>, i: int)
    requires 0 <= i < |entries|
  {
    forall j :: i < j < |entries| ==> Strings.Lower(entries[j].0) != Strings.Lower(entries[i].0)
  }

  /** A repository is monitored exactly when some configured name equals its
      full name up to ASCII case. */
  lemma MonitoredIgnoringCase(entries: seq<(string, Block)>, fullName: string)
    ensures Strings.Lower(fullName) in Registry(entries)
        <==> exists i :: 0 <= i < |entries| && Strings.Lower(entries[i].0) == Strings.Lower(fullName)
  {
  }
}

=== FILE: seqs.dfy ===
/** Sequence helpers shared by the event cursor and the registries: reversal,
    filtering and the "later entry wins" map built by a Python dict
    comprehension or a loop of dict assignments. */
module Seqs {

  /** `s` read back to front (recursion on the last element, so that
      prepending one element to a reversed prefix is one unfolding). */
  function Reverse<T>(s: seq<T>): (r: seq<T>)
    ensures |r| == |s|
    ensures forall i :: 0 <= i < |s| ==> r[i] == s[|s| - 1 - i]
  {
    if |s| == 0 then [] else [s[|s| - 1]] + Reverse(s[..|s| - 1])
  }

  /** The elements of `s` that satisfy `keep`, in their original order. */
  function Filter<T(!new)>(s: seq<T>, keep: T -> bool): (r: seq<T>)
    ensures |r| <= |s|
    ensures forall x :: x in r <==> x in s && keep(x)
  {
    if |s| == 0 then []
    else Filter(s[..|s| - 1], keep) + (if keep(s[|s| - 1]) then [s[|s| - 1]] else [])
  }

  /** Strictly increasing integers. */
  predicate Increasing(s: seq<int>) {
    forall i, j :: 0 <= i < j < |s| ==> s[i] < s[j]
  }

  /** Appending a value above every element keeps a sequence increasing. */
  lemma AppendAboveIncreasing(s: seq<int>, x: int)
    requires Increasing(s)
    requires forall i :: 0 <= i < |s| ==> s[i] < x
    ensures Increasing(s + [x])
  {
  }

  /** Filtering commutes with appending one element. */
  lemma FilterSnoc<T(!new)>(s: seq<T>, x: T, keep: T -> bool)
    ensures Filter(s + [x], keep) == Filter(s, keep) + (if keep(x) then [x] else [])
  {
  }

  /** The map a sequence of `key: value` assignments leaves behind: every key
      that was assigned, bound to the value of its LAST assignment
      (`LastWinsKeys`, `LastWinsValues`, `LastWinsFrom`). */
  function LastWins<K, V>(entries: seq<(K, V)>): map<K, V> {
    if |entries| == 0 then map[]
    else
      var last := entries[|entries| - 1];
      LastWins(entries[..|entries| - 1])[last.0 := last.1]
  }

  /** The keys are exactly the assigned keys. */
  lemma {:induction false} LastWinsKeys<K, V>(entries: seq<(K, V)>)
    ensures LastWins(entries).Keys == set i | 0 <= i < |entries| :: entries[i].0
  {
    if |entries| > 0 {
      var init := entries[..|entries| - 1];
      LastWinsKeys(init);
      assert forall i :: 0 <= i < |init| ==> init[i] == entries[i];
      var m := LastWins(entries);
      forall k | k in m.Keys
        ensures exists i :: 0 <= i < |entries| && entries[i].0 == k
      {
        if k != entries[|entries| - 1].0 {
          var i :| 0 <= i < |init| && init[i].0 == k;
          assert entries[i].0 == k;
        }
      }
      forall i | 0 <= i < |entries|
        ensures entries[i].0 in m.Keys
      {
        if i < |init| {
          assert init[i].0 in LastWins(init).Keys;
        }
      }
    }
  }

  /** Each key is bound to the value of its last assignment. */
  lemma {:induction false} LastWinsValues<K, V>(entries: seq<(K, V)>)
    ensures forall i :: 0 <= i < |entries| && IsLastFor(entries, i) ==>
      entries[i].0 in LastWins(entries) && LastWins(entries)[entries[i].0] == entries[i].1
  {
    if |entries| > 0 {
      var init := entries[..|entries| - 1];
      LastWinsValues(init);
      assert forall i :: 0 <= i < |init| ==> init[i] == entries[i];
      forall i | 0 <= i < |entries| && IsLastFor(entries, i)
        ensures entries[i].0 in LastWins(entries) && LastWins(entries)[entries[i].0] == entries[i].1
      {
        if i < |init| {
          assert IsLastFor(init, i);
        }
      }
    }
  }

  /** Every binding comes from one of the assignments. */
  lemma {:induction false} LastWinsFrom<K, V>(entries: seq<(K, V)>)
    ensures forall k :: k in LastWins(entries) ==> (k, LastWins(entries)[k]) in entries
  {
    if |entries| > 0 {
      var init := entries[..|entries| - 1];
      LastWinsFrom(init);
      forall k | k in LastWins(entries)
        ensures (k, LastWins(entries)[k]) in entries
      {
        if k != entries[|entries| - 1].0 {
          assert (k, LastWins(init)[k]) in init;
        }
      }
    }
  }

  /** No entry after position `i` assigns the same key. */
  ghost predicate IsLastFor<K, V>(entries: seq<(K, V)>, i: int)
    requires 0 <= i < |entries|
  {
    forall j :: i < j < |entries| ==> entries[j].0 != entries[i].0
  }
}

=== FILE: settings.dfy ===
/** The command-line bot's validated configuration object. Its state is the
    instance's attribute dictionary; every assignment goes through one
    validating setter, which may force, drop, normalise or reject the value. */
module Settings {
  import opened Wrappers
  import opened Errors
  import Strings
  import Seqs

  /** The dynamically typed values the configuration holds. */
  datatype Value =
    | Nothing
    | Flag(b: bool)
    | Number(n: int)
    | Text(s: string)
    | TextSet(items: set<string>)
    /** team -> logins */
    | Teams(teams: map<string, set<string>>)
    /** label -> glob */
    | Patterns(patterns: map<string, string>)

  /** Python truthiness of a value. */
  predicate Truthy(v: Value) {
    match v
    case Nothing => false
    case Flag(b) => b
    case Number(n) => n != 0
    case Text(s) => |s| > 0
    case TextSet(items) => |items| > 0
    case Teams(teams) => |teams| > 0
    case Patterns(patterns) => |patterns| > 0
  }

  /** Attribute names: the ones the configuration knows, and any other. */
  datatype Attr =
    | Repository | Debug | LogLevel | AuthorTeam | LabelPattern | StartEvent | PullRequests
    /** the private session handle */
    | Session
    /** an attribute the configuration does not know: `name` is never the
        name of one of the constructors above */
    | Other(name: string)

  /** The attribute dictionary of a configuration object. */
  type Config = map<Attr, Value>

  /** Attributes that keyword overrides may set. */
  const Attributes: set<Attr> := {Debug, LogLevel, AuthorTeam, LabelPattern, PullRequests}
  /** Attributes stored as integers. */
  const IntAttributes: set<Attr> := {StartEvent}
  const LogLevels: set<string> := {"CRITICAL", "ERROR", "WARNING", "INFO", "DEBUG", "NOTSET"}

  /** The boolean and set parsers the setter delegates to; their definitions
      are not part of this model. */
  datatype Parsers = Parsers(parseBool: Value -> bool, parseSet: Value -> set<string>)

  /** A boolean parser that only accepts truthy values, as any sensible
      `parse_bool` does. */
  ghost predicate SoundBool(p: Parsers) {
    forall v :: p.parseBool(v) ==> Truthy(v)
  }

  /** `int(v)` for the values the setter can receive. */
  function ToInt(attr: Attr, v: Value): (r: Result<int, Error>)
    ensures v.Number? ==> r == Success(v.n)
    ensures v.Flag? ==> r == Success(if v.b then 1 else 0)
    ensures v.TextSet? || v.Teams? || v.Patterns? || v.Nothing? ==> r == Failure(TypeError("int"))
    ensures v.Text? ==> (r.Success? <==> Strings.IsNumeral(v.s))
    ensures v.Text? && r.Success? ==> Strings.ParseInt(v.s) == Some(r.value)
  {
    match v
    case Number(n) => Success(n)
    case Flag(b) => Success(if b then 1 else 0)
    case Text(s) =>
      (match Strings.ParseInt(s)
       case Some(n) => Success(n)
       case None => Failure(ValueError(s)))
    case _ => Failure(TypeError("int"))
  }

  /** Attribute `a` keeps its presence and value from `c` to `c'`. */
  predicate Unchanged(c: Config, c': Config, a: Attr) {
    (a in c' <==> a in c) && (a in c ==> c'[a] == c[a])
  }

  /** Every attribute outside `changed` keeps its presence and value. */
  ghost predicate OnlyChanged(c: Config, c': Config, changed: set<Attr>) {
    forall a {:trigger Unchanged(c, c', a)} :: a !in changed ==> Unchanged(c, c', a)
  }

  /** Assigning the log level. While debug is on the assignment is dropped;
      otherwise a level given as text is upper-cased and must be known. */
  function SetLogLevel(c: Config, v: Value): (r: Result<Config, Error>)
    ensures Debug !in c ==> r == Failure(AttributeError("debug"))
    ensures Debug in c && Truthy(c[Debug]) ==> r == Success(c)
    ensures Debug in c && !Truthy(c[Debug]) && v.Text? ==>
      && (r.Success? <==> Strings.Upper(v.s) in LogLevels)
      && (r.Success? ==> r.value == c[LogLevel := Text(Strings.Upper(v.s))])
      && (r.Failure? ==> r.error == LandaException("Invalid log level: " + Strings.Upper(v.s)))
    ensures Debug in c && !Truthy(c[Debug]) && v.Nothing? ==> r == Success(c[LogLevel := Nothing])
    ensures Debug in c && !Truthy(c[Debug]) && !v.Nothing? && !v.Text? ==> r == Failure(AttributeError("upper"))
    ensures r.Success? ==> OnlyChanged(c, r.value, {LogLevel})
  {
    if Debug !in c then Failure(AttributeError("debug"))
    else if Truthy(c[Debug]) then Success(c)
    else if v.Nothing? then Success(c[LogLevel := v])
    else if !v.Text? then Failure(AttributeError("upper"))
    else
      var level := Strings.Upper(v.s);
      if level !in LogLevels then Failure(LandaException("Invalid log level: " + level))
      else Success(c[LogLevel := Text(level)])
  }

  /** Assigning the repository: text must split on `/` into exactly two parts. */
  function SetRepository(c: Config, v: Value): (r: Result<Config, Error>)
    ensures v.Text? ==>
      && (r.Success? <==> Strings.Count(v.s, '/') == 1)
      && (r.Success? ==> r.value == c[Repository := v])
      && (r.Failure? ==> r.error == LandaException("Invalid repository: " + v.s))
    ensures v.Nothing? ==> r == Success(c[Repository := v])
  {
    if v.Nothing? then Success(c[Repository := v])
    else if !v.Text? then Failure(AttributeError("split"))
    else if |Strings.Split(v.s, '/')| != 2 then Failure(LandaException("Invalid repository: " + v.s))
    else Success(c[Repository := v])
  }

  /** Assigning an integer attribute: anything but `None` is converted by
      `int`, which keeps an integer, maps a boolean to 0 or 1, parses a
      numeral and rejects a collection. */
  function SetInteger(c: Config, attr: Attr, v: Value): (r: Result<Config, Error>)
    ensures v.Nothing? ==> r == Success(c[attr := v])
    ensures v.Number? ==> r == Success(c[attr := v])
    ensures v.Flag? ==> r == Success(c[attr := Number(if v.b then 1 else 0)])
    ensures v.TextSet? || v.Teams? || v.Patterns? ==> r == Failure(TypeError("int"))
    ensures v.Text? ==>
      && (r.Success? <==> Strings.IsNumeral(v.s))
      && (r.Success? ==> r.value == c[attr := Number(Strings.ParseInt(v.s).value)])
      && (r.Failure? ==> r.error == ValueError(v.s))
    ensures r.Success? ==> attr in r.value && r.value[attr].Number? != v.Nothing?
    ensures r.Success? ==> OnlyChanged(c, r.value, {attr})
  {
    if v.Nothing? then Success(c[attr := v])
    else
      var n :- ToInt(attr, v);
      Success(c[attr := Number(n)])
  }

  /** The validating setter: `config.attr = v`. A debug flag the boolean
      parser accepts first assigns the log level `DEBUG` (through the same
      setter, so it is dropped when debug is already on), then is stored as given. */
  function SetAttr(c: Config, attr: Attr, v: Value, p: Parsers): (r: Result<Config, Error>)
    ensures attr == Debug && p.parseBool(v) && Debug in c && !Truthy(c[Debug])
      ==> r == Success(c[LogLevel := Text("DEBUG")][Debug := v])
    ensures attr == Debug && p.parseBool(v) && Debug in c && Truthy(c[Debug])
      ==> r == Success(c[Debug := v])
    ensures attr == Debug && !p.parseBool(v) ==> r == Success(c[Debug := v])
    ensures attr == PullRequests ==> r == Success(c[attr := if v.Nothing? then v else TextSet(p.parseSet(v))])
    ensures attr == LogLevel ==> r == SetLogLevel(c, v)
    ensures attr == Repository ==> r == SetRepository(c, v)
    ensures attr == StartEvent ==> r == SetInteger(c, attr, v)
    ensures attr !in {Debug, PullRequests, LogLevel, Repository, StartEvent} ==> r == Success(c[attr := v])
    ensures r.Success? ==> OnlyChanged(c, r.value, {attr, LogLevel})
    ensures r.Success? && attr != Debug ==> OnlyChanged(c, r.value, {attr})
  {
    if attr == Debug && p.parseBool(v) then
      assert Strings.Upper("DEBUG") == "DEBUG";
      var forced :- SetLogLevel(c, Text("DEBUG"));
      Success(forced[attr := v])
    else if attr == PullRequests then
      Success(c[attr := if v.Nothing? then v else TextSet(p.parseSet(v))])
    else if attr == LogLevel then SetLogLevel(c, v)
    else if attr == Repository then SetRepository(c, v)
    else if attr in IntAttributes then SetInteger(c, attr, v)
    else Success(c[attr := v])
  }

  /** Attribute `attr` is set and holds `v`. */
  predicate Holds(c: Config, attr: Attr, v: Value) {
    attr in c && c[attr] == v
  }

  /** A run of assignments, stopping at the first that raises. */
  function Assign(c: Config, assignments: seq<(Attr, Value)>, p: Parsers): Result<Config, Error> {
    if |assignments| == 0 then Success(c)
    else
      var last := assignments[|assignments| - 1];
      var c' :- Assign(c, assignments[..|assignments| - 1], p);
      SetAttr(c', last.0, last.1, p)
  }

  /** Once debug is on, no run of assignments that leaves `debug` alone
      changes the log level. */
  lemma {:induction false} DebugLocksLogLevel(c: Config, assignments: seq<(Attr, Value)>, p: Parsers)
    requires Debug in c && Truthy(c[Debug])
    requires forall i :: 0 <= i < |assignments| ==> assignments[i].0 != Debug
    ensures Assign(c, assignments, p).Success? ==>
      var c' := Assign(c, assignments, p).value;
      Debug in c' && c'[Debug] == c[Debug]
      && (LogLevel in c' <==> LogLevel in c)
      && (LogLevel in c ==> c'[LogLevel] == c[LogLevel])
  {
    if |assignments| > 0 {
      DebugLocksLogLevel(c, assignments[..|assignments| - 1], p);
    }
  }

  /** Keyword overrides against an allow-list: each one whose name is in
      `allowed` and whose value is truthy is assigned, in order; the others
      are ignored. Besides the allowed attributes only the log level can
      change, which a truthy debug flag forces. */
  function OverrideAllowing(c: Config, allowed: set<Attr>, overrides: seq<(Attr, Value)>, p: Parsers)
    : (r: Result<Config, Error>)
    ensures r.Success? ==> OnlyChanged(c, r.value, allowed + {LogLevel})
  {
    if |overrides| == 0 then Success(c)
    else
      var last := overrides[|overrides| - 1];
      var c' :- OverrideAllowing(c, allowed, overrides[..|overrides| - 1], p);
      if last.0 in allowed && Truthy(last.1) then
        var r := SetAttr(c', last.0, last.1, p);
        assert r.Success? ==> OnlyChanged(c, r.value, allowed + {LogLevel}) by {
          if r.Success? {
            forall a | a !in allowed + {LogLevel}
              ensures Unchanged(c, r.value, a)
            {
              assert Unchanged(c, c', a) && Unchanged(c', r.value, a);
            }
          }
        }
        r
      else Success(c')
  }

  /** `override`: the allow-list is `ATTRIBUTES`, so only those five
      attributes can change. */
  function Override(c: Config, overrides: seq<(Attr, Value)>, p: Parsers): (r: Result<Config, Error>)
    ensures r.Success? ==> OnlyChanged(c, r.value, Attributes)
  {
    assert Attributes + {LogLevel} == Attributes;
    OverrideAllowing(c, Attributes, overrides, p)
  }

  /** Overrides whose values are all falsy change nothing, whatever the
      allow-list. */
  lemma {:induction false} FalsyOverridesKeep(c: Config, allowed: set<Attr>, overrides: seq<(Attr, Value)>, p: Parsers)
    requires forall k :: 0 <= k < |overrides| ==> !Truthy(overrides[k].1)
    ensures OverrideAllowing(c, allowed, overrides, p) == Success(c)
  {
    if |overrides| > 0 {
      FalsyOverridesKeep(c, allowed, overrides[..|overrides| - 1], p);
    }
  }

  predicate Applicable(o: (Attr, Value)) {
    o.0 in Attributes && Truthy(o.1)
  }

  /** Assigning one more value after a run of assignments. */
  lemma AssignSnoc(c: Config, assignments: seq<(Attr, Value)>, x: (Attr, Value), p: Parsers)
    ensures var before := Assign(c, assignments, p);
      Assign(c, assignments + [x], p)
        == if before.Failure? then Failure(before.error) else SetAttr(before.value, x.0, x.1, p)
  {
  }

  /** Overriding is assigning exactly the applicable overrides. */
  lemma {:induction false} OverrideAssignsApplicable(c: Config, overrides: seq<(Attr, Value)>, p: Parsers)
    ensures Override(c, overrides, p) == Assign(c, Seqs.Filter(overrides, Applicable), p)
  {
    if |overrides| > 0 {
      var init := overrides[..|overrides| - 1];
      var last := overrides[|overrides| - 1];
      OverrideAssignsApplicable(c, init, p);
      assert overrides == init + [last];
      Seqs.FilterSnoc(init, last, Applicable);
      var kept := Seqs.Filter(init, Applicable);
      OverrideSnoc(c, init, last, p);
      if Applicable(last) {
        assert Seqs.Filter(overrides, Applicable) == kept + [last];
        AssignSnoc(c, kept, last, p);
      } else {
        assert Seqs.Filter(overrides, Applicable) == kept;
      }
    }
  }

  /** Overriding with one more keyword after a run of overrides. */
  lemma OverrideSnoc(c: Config, overrides: seq<(Attr, Value)>, x: (Attr, Value), p: Parsers)
    ensures var before := Override(c, overrides, p);
      Override(c, overrides + [x], p)
        == if before.Failure? then Failure(before.error)
           else if Applicable(x) then SetAttr(before.value, x.0, x.1, p)
           else before
  {
  }

  /** The default of every defaulted attribute. */
  const DefaultValues: Config := map[
    AuthorTeam := Teams(map[]), Debug := Flag(false), LabelPattern := Patterns(map[]),
    LogLevel := Text("ERROR"), StartEvent := Nothing, PullRequests := Nothing]

  /** Merging a map updated at `k` is merging it and then updating at `k`. */
  lemma MergeUpdate<K, V>(c: map<K, V>, m: map<K, V>, k: K, v: V)
    ensures c + m[k := v] == (c + m)[k := v]
  {
  }

  /** The first three defaults: the label rules and the debug flag. */
  function SetRuleDefaults(c: Config, p: Parsers): (r: Result<Config, Error>)
    requires !p.parseBool(Flag(false))
    ensures r == Success(c[AuthorTeam := Teams(map[])][Debug := Flag(false)][LabelPattern := Patterns(map[])])
  {
    var c1 := SetAttr(c, AuthorTeam, Teams(map[]), p).value;
    assert c1 == c[AuthorTeam := Teams(map[])];
    var c2 := SetAttr(c1, Debug, Flag(false), p).value;
    assert c2 == c1[Debug := Flag(false)];
    SetAttr(c2, LabelPattern, Patterns(map[]), p)
  }

  /** The last three defaults: the log level, the start event and the
      pull-request list, assigned while debug is off. */
  function SetRunDefaults(c: Config, p: Parsers): (r: Result<Config, Error>)
    requires Holds(c, Debug, Flag(false))
    ensures r == Success(c[LogLevel := Text("ERROR")][StartEvent := Nothing][PullRequests := Nothing])
  {
    assert Strings.Upper("ERROR") == "ERROR";
    var c4 := SetAttr(c, LogLevel, Text("ERROR"), p).value;
    assert c4 == c[LogLevel := Text("ERROR")];
    var c5 := SetAttr(c4, StartEvent, Nothing, p).value;
    assert c5 == c4[StartEvent := Nothing];
    SetAttr(c5, PullRequests, Nothing, p)
  }

  /** The defaults, assigned in the order the source assigns them: they
      overwrite the configuration's defaulted attributes and keep the rest. */
  function SetDefaults(c: Config, p: Parsers): (r: Result<Config, Error>)
    requires !p.parseBool(Flag(false))
    ensures r == Success(c + DefaultValues)
  {
    var rules := SetRuleDefaults(c, p).value;
    var r := SetRunDefaults(rules, p);
    var m0: Config := map[];
    var m1 := m0[AuthorTeam := Teams(map[])];
    var m2 := m1[Debug := Flag(false)];
    var m3 := m2[LabelPattern := Patterns(map[])];
    var m4 := m3[LogLevel := Text("ERROR")];
    var m5 := m4[StartEvent := Nothing];
    var m6 := m5[PullRequests := Nothing];
    assert c + m0 == c;
    MergeUpdate(c, m0, AuthorTeam, Teams(map[]));
    MergeUpdate(c, m1, Debug, Flag(false));
    MergeUpdate(c, m2, LabelPattern, Patterns(map[]));
    MergeUpdate(c, m3, LogLevel, Text("ERROR"));
    MergeUpdate(c, m4, StartEvent, Nothing);
    MergeUpdate(c, m5, PullRequests, Nothing);
    assert m6 == DefaultValues;
    r
  }

  /** The command line's keyword overrides, in the order the entry point passes them. */
  function CommandLine(debug: Value, logLevel: Value, pullRequests: Value, startEvent: Value): seq<(Attr, Value)> {
    [(Debug, debug), (LogLevel, logLevel), (PullRequests, pullRequests), (StartEvent, startEvent)]
  }

  /** With the keywords in the order the entry point writes them, debug
      before the level, the command line's debug flag wins over any
      `--logging` level, and the `--start` event id never reaches the
      configuration. */
  lemma CommandLineDebugWins(c: Config, debug: Value, logLevel: Value, pullRequests: Value, startEvent: Value, p: Parsers)
    requires SoundBool(p) && p.parseBool(debug)
    requires Holds(c, Debug, Flag(false))
    ensures var r := Override(c, CommandLine(debug, logLevel, pullRequests, startEvent), p);
      r.Success? && Holds(r.value, LogLevel, Text("DEBUG")) && Unchanged(c, r.value, StartEvent)
  {
    var args := CommandLine(debug, logLevel, pullRequests, startEvent);
    var afterDebug := c[LogLevel := Text("DEBUG")][Debug := debug];
    assert Truthy(debug);
    OverrideSnoc(c, [], args[0], p);
    assert Override(c, args[..1], p) == Success(afterDebug) by {
      assert args[..1] == [] + [args[0]];
    }
    OverrideSnoc(c, args[..1], args[1], p);
    assert args[..2] == args[..1] + [args[1]];
    OverrideSnoc(c, args[..2], args[2], p);
    assert args[..3] == args[..2] + [args[2]];
    OverrideSnoc(c, args[..3], args[3], p);
    assert args == args[..3] + [args[3]];
  }

  /** The same keywords with `log_level` assigned before `debug`: a keyword
      dictionary may iterate them in either order. */
  function CommandLineLevelFirst(debug: Value, logLevel: Value, pullRequests: Value, startEvent: Value): seq<(Attr, Value)> {
    [(LogLevel, logLevel), (Debug, debug), (PullRequests, pullRequests), (StartEvent, startEvent)]
  }

  /** A `--logging` value the setter accepts while debug is off, or one the
      override skips as falsy. */
  predicate AcceptedLevel(v: Value) {
    !Truthy(v) || (v.Text? && Strings.Upper(v.s) in LogLevels)
  }

  /** With the level assigned first, a truthy debug flag still wins, but only
      when the level is accepted: an unknown level raises before debug is seen. */
  lemma CommandLineLevelFirstDebugWins(c: Config, debug: Value, logLevel: Value, pullRequests: Value, startEvent: Value, p: Parsers)
    requires SoundBool(p) && p.parseBool(debug)
    requires Holds(c, Debug, Flag(false))
    ensures var r := Override(c, CommandLineLevelFirst(debug, logLevel, pullRequests, startEvent), p);
      && (r.Success? <==> AcceptedLevel(logLevel))
      && (r.Success? ==> Holds(r.value, LogLevel, Text("DEBUG")) && Unchanged(c, r.value, StartEvent))
      && (logLevel.Text? && !AcceptedLevel(logLevel) ==>
            r == Failure(LandaException("Invalid log level: " + Strings.Upper(logLevel.s))))
  {
    var args := CommandLineLevelFirst(debug, logLevel, pullRequests, startEvent);
    OverrideSnoc(c, [], args[0], p);
    assert args[..1] == [] + [args[0]];
    if AcceptedLevel(logLevel) {
      LevelFirstAccepted(c, args, p);
    } else {
      LevelFirstRejected(c, args, p);
    }
  }

  /** An accepted level is stored (or skipped), then debug forces `DEBUG`. */
  lemma LevelFirstAccepted(c: Config, args: seq<(Attr, Value)>, p: Parsers)
    requires SoundBool(p) && |args| == 4
    requires args[0].0 == LogLevel && AcceptedLevel(args[0].1)
    requires args[1].0 == Debug && p.parseBool(args[1].1)
    requires args[2].0 == PullRequests && args[3].0 == StartEvent
    requires Holds(c, Debug, Flag(false))
    ensures var r := Override(c, args, p);
      r.Success? && Holds(r.value, LogLevel, Text("DEBUG")) && Unchanged(c, r.value, StartEvent)
  {
    assert Truthy(args[1].1);
    OverrideSnoc(c, [], args[0], p);
    assert args[..1] == [] + [args[0]];
    var c1 := Override(c, args[..1], p).value;
    assert Holds(c1, Debug, Flag(false)) && Unchanged(c, c1, StartEvent);
    OverrideSnoc(c, args[..1], args[1], p);
    assert args[..2] == args[..1] + [args[1]];
    var c2 := Override(c, args[..2], p).value;
    assert c2 == c1[LogLevel := Text("DEBUG")][Debug := args[1].1];
    OverrideSnoc(c, args[..2], args[2], p);
    assert args[..3] == args[..2] + [args[2]];
    OverrideSnoc(c, args[..3], args[3], p);
    assert args == args[..3] + [args[3]];
  }

  /** A rejected level raises at once, and the error survives the rest. */
  lemma LevelFirstRejected(c: Config, args: seq<(Attr, Value)>, p: Parsers)
    requires |args| == 4 && args[0].0 == LogLevel && !AcceptedLevel(args[0].1)
    requires Holds(c, Debug, Flag(false))
    ensures var r := Override(c, args, p);
      && r.Failure?
      && (args[0].1.Text? ==> r == Failure(LandaException("Invalid log level: " + Strings.Upper(args[0].1.s))))
  {
    OverrideSnoc(c, [], args[0], p);
    assert args[..1] == [] + [args[0]];
    var first := Override(c, args[..1], p);
    assert first.Failure?;
    OverrideSnoc(c, args[..1], args[1], p);
    assert args[..2] == args[..1] + [args[1]];
    OverrideSnoc(c, args[..2], args[2], p);
    assert args[..3] == args[..2] + [args[2]];
    OverrideSnoc(c, args[..3], args[3], p);
    assert args == args[..3] + [args[3]];
  }

  // ---------------------------------------------------------------------------
  // The `--start` option

  /** As written, `--start` never reaches the configuration: `start_event` is
      not among the attributes `override` accepts, so a command line giving
      only a start event id leaves the configuration as it was, and the bot
      starts from the current time instead. */
  lemma StartOptionIgnored(c: Config, start: Value, p: Parsers)
    ensures Override(c, CommandLine(Nothing, Nothing, Nothing, start), p) == Success(c)
  {
    var args := CommandLine(Nothing, Nothing, Nothing, start);
    FalsyOverridesKeep(c, Attributes, args[..3], p);
  }

  /** The allow-list the documented `--start` option needs: the overridable
      attributes and the start event. */
  const CorrectedAttributes: set<Attr> := Attributes + {StartEvent}

  /** `override` with the corrected allow-list. */
  function OverrideCorrected(c: Config, overrides: seq<(Attr, Value)>, p: Parsers): (r: Result<Config, Error>)
    ensures r.Success? ==> OnlyChanged(c, r.value, CorrectedAttributes)
  {
    assert CorrectedAttributes + {LogLevel} == CorrectedAttributes;
    OverrideAllowing(c, CorrectedAttributes, overrides, p)
  }

  /** With the corrected allow-list, a `--start` id is stored as the integer
      it denotes, and one that is not a numeral raises `ValueError`. */
  lemma CorrectedStartOptionStored(c: Config, start: string, p: Parsers)
    requires start != ""
    ensures var r := OverrideCorrected(c, CommandLine(Nothing, Nothing, Nothing, Text(start)), p);
      && (r.Success? <==> Strings.IsNumeral(start))
      && (r.Success? ==> r.value == c[StartEvent := Number(Strings.ParseInt(start).value)])
      && (r.Failure? ==> r.error == ValueError(start))
  {
    var args := CommandLine(Nothing, Nothing, Nothing, Text(start));
    FalsyOverridesKeep(c, CorrectedAttributes, args[..3], p);
  }
}

=== FILE: strings.dfy ===
/** The Python `str` operations the modelled code relies on, restricted to
    ASCII: `lower`, `upper`, `startswith`, `split`, `rsplit(sep, 1)` and the
    decimal `int(...)` conversion. */
module Strings {
  import opened Wrappers

  function LowerChar(c: char): char {
    if 'A' <= c <= 'Z' then (c as int + 32) as char else c
  }

  function UpperChar(c: char): char {
    if 'a' <= c <= 'z' then (c as int - 32) as char else c
  }

  /** `s.lower()` for ASCII letters. */
  function Lower(s: string): (r: string)
    ensures |r| == |s|
    ensures forall i :: 0 <= i < |s| ==> r[i] == LowerChar(s[i])
  {
    seq(|s|, i requires 0 <= i < |s| => LowerChar(s[i]))
  }

  /** `s.upper()` for ASCII letters. */
  function Upper(s: string): (r: string)
    ensures |r| == |s|
    ensures forall i :: 0 <= i < |s| ==> r[i] == UpperChar(s[i])
  {
    seq(|s|, i requires 0 <= i < |s| => UpperChar(s[i]))
  }

  predicate StartsWith(s: string, prefix: string) {
    |prefix| <= |s| && s[..|prefix|] == prefix
  }

  /** Number of occurrences of `c` in `s`. */
  function Count(s: string, c: char): nat {
    if |s| == 0 then 0 else (if s[0] == c then 1 else 0) + Count(s[1..], c)
  }

  /** `s.split(sep)` for a one-character separator: the maximal separator-free
      pieces, one more than there are separators. */
  function Split(s: string, sep: char): (parts: seq<string>)
    ensures |parts| == Count(s, sep) + 1
    ensures forall i :: 0 <= i < |parts| ==> sep !in parts[i]
  {
    if |s| == 0 then [""]
    else
      var rest := Split(s[1..], sep);
      if s[0] == sep then [""] + rest
      else [[s[0]] + rest[0]] + rest[1..]
  }

  /** Pieces joined back with the separator. */
  function Join(parts: seq<string>, sep: char): string
    requires |parts| > 0
  {
    if |parts| == 1 then parts[0] else parts[0] + [sep] + Join(parts[1..], sep)
  }

  /** `split` loses nothing: joining the pieces gives the text back. */
  lemma {:induction false} JoinSplit(s: string, sep: char)
    ensures Join(Split(s, sep), sep) == s
  {
    if |s| > 0 {
      JoinSplit(s[1..], sep);
      var rest := Split(s[1..], sep);
      if s[0] != sep {
        if |rest| == 1 {
        } else {
          assert ([s[0]] + rest[0]) + [sep] + Join(rest[1..], sep)
              == [s[0]] + (rest[0] + [sep] + Join(rest[1..], sep));
        }
        assert Split(s, sep)[1..] == rest[1..];
      } else {
        assert Split(s, sep)[1..] == rest;
      }
      assert s == [s[0]] + s[1..];
    }
  }

  /** `s.rsplit(sep, 1)[1]`: the text after the last separator. */
  function AfterLast(s: string, sep: char): (r: string)
    requires sep in s
    ensures sep !in r
    ensures |r| < |s| && s[|s| - |r| - 1] == sep && r == s[|s| - |r|..]
  {
    if s[|s| - 1] == sep then []
    else
      assert sep in s[..|s| - 1] by {
        var i :| 0 <= i < |s| && s[i] == sep;
        assert s[..|s| - 1][i] == sep;
      }
      var r := AfterLast(s[..|s| - 1], sep);
      r + [s[|s| - 1]]
  }

  predicate IsDigit(c: char) {
    '0' <= c <= '9'
  }

  predicate AllDigits(s: string) {
    forall i :: 0 <= i < |s| ==> IsDigit(s[i])
  }

  /** Value of a string of decimal digits, most significant first. */
  function DigitsValue(s: string): nat
    requires AllDigits(s)
  {
    if |s| == 0 then 0
    else DigitsValue(s[..|s| - 1]) * 10 + (s[|s| - 1] as int - '0' as int)
  }

  /** A numeral `int(...)` accepts here: an optional sign and at least one digit. */
  predicate IsNumeral(s: string) {
    if |s| > 0 && (s[0] == '-' || s[0] == '+') then |s| > 1 && AllDigits(s[1..])
    else |s| > 0 && AllDigits(s)
  }

  /** `int(s)` for text: `None` where Python raises `ValueError`. */
  function ParseInt(s: string): (r: Option<int>)
    ensures r.Some? <==> IsNumeral(s)
    ensures r.Some? && |s| > 0 && s[0] == '-' ==> r.value <= 0
    ensures r.Some? && |s| > 0 && s[0] != '-' ==> r.value >= 0
  {
    if |s| > 0 && (s[0] == '-' || s[0] == '+') then
      if |s| > 1 && AllDigits(s[1..]) then
        var magnitude: int := DigitsValue(s[1..]);
        Some(if s[0] == '-' then -magnitude else magnitude)
      else None
    else if |s| > 0 && AllDigits(s) then Some(DigitsValue(s))
    else None
  }

  function DigitChar(d: nat): char
    requires d < 10
  {
    ('0' as int + d) as char
  }

  /** Decimal digits of `n`, without leading zeros. */
  function ShowNat(n: nat): (r: string)
    ensures |r| > 0 && AllDigits(r)
  {
    if n < 10 then [DigitChar(n)] else ShowNat(n / 10) + [DigitChar(n % 10)]
  }

  /** `str(n)`. */
  function ShowInt(n: int): string {
    if n < 0 then "-" + ShowNat(-n) else ShowNat(n)
  }

  lemma {:induction false} DigitsValueShowNat(n: nat)
    ensures DigitsValue(ShowNat(n)) == n
  {
    if n >= 10 {
      DigitsValueShowNat(n / 10);
      var s := ShowNat(n / 10) + [DigitChar(n % 10)];
      assert s[..|s| - 1] == ShowNat(n / 10);
    }
  }

  /** `int(str(n)) == n`: the conversion reads back every integer it prints. */
  lemma ParseShowInt(n: int)
    ensures ParseInt(ShowInt(n)) == Some(n)
  {
    if n < 0 {
      DigitsValueShowNat(-n);
      assert ShowInt(n)[1..] == ShowNat(-n);
    } else {
      DigitsValueShowNat(n);
    }
  }
}

=== FILE: tracker.dfy ===
/** The command-line bot: the open pull requests it tracks by head branch,
    how pull-request and push events change and use that map, the labels it
    adds to a pull request, and the batch run over listed pull requests. */
module Tracker {
  import opened Wrappers
  import opened Errors
  import opened Events
  import Seqs
  import Strings
  import Decision
  import Glob
  import Poller

  /** Open pull requests by head branch name. */
  type OpenPrs = map<string, PullRequest>

  /** Every tracked pull request sits under its own head branch. */
  ghost predicate Indexed(open: OpenPrs) {
    forall b :: b in open ==> open[b].headRef == b
  }

  /** The map built from the repository's list of open pull requests: a later
      pull request on the same head branch replaces an earlier one. */
  function IndexByHead(prs: seq<PullRequest>): (open: OpenPrs)
    ensures Indexed(open)
    ensures forall pr :: pr in prs ==> pr.headRef in open
    ensures forall b :: b in open ==> open[b] in prs
    ensures forall i :: 0 <= i < |prs| && LastOnItsHead(prs, i) ==> open[prs[i].headRef] == prs[i]
  {
    HeadEntriesIndex(prs);
    Seqs.LastWins(HeadEntries(prs))
  }

  /** The assignments `open_prs[pr.head.ref] = pr`, in list order. */
  function HeadEntries(prs: seq<PullRequest>): (entries: seq<(string, PullRequest)>)
    ensures |entries| == |prs|
    ensures forall i :: 0 <= i < |prs| ==> entries[i] == (prs[i].headRef, prs[i])
  {
    seq(|prs|, i requires 0 <= i < |prs| => (prs[i].headRef, prs[i]))
  }

  lemma HeadEntriesIndex(prs: seq<PullRequest>)
    ensures var open := Seqs.LastWins(HeadEntries(prs));
      && Indexed(open)
      && (forall pr :: pr in prs ==> pr.headRef in open)
      && (forall b :: b in open ==> open[b] in prs)
      && (forall i :: 0 <= i < |prs| && LastOnItsHead(prs, i) ==> open[prs[i].headRef] == prs[i])
  {
    var entries := HeadEntries(prs);
    var open := Seqs.LastWins(entries);
    Seqs.LastWinsFrom(entries);
    Seqs.LastWinsKeys(entries);
    Seqs.LastWinsValues(entries);
    assert forall i :: 0 <= i < |prs| && LastOnItsHead(prs, i) ==> Seqs.IsLastFor(entries, i);
    forall pr | pr in prs
      ensures pr.headRef in open
    {
      var i :| 0 <= i < |prs| && prs[i] == pr;
      assert entries[i].0 in open.Keys;
    }
    forall b | b in open
      ensures open[b].headRef == b && open[b] in prs
    {
      var i :| 0 <= i < |entries| && entries[i] == (b, open[b]);
    }
  }

  /** No later pull request in the list has the same head branch as entry `i`. */
  ghost predicate LastOnItsHead(prs: seq<PullRequest>, i: int)
    requires 0 <= i < |prs|
  {
    forall j :: i < j < |prs| ==> prs[j].headRef != prs[i].headRef
  }

  /** The bot's state after construction. */
  datatype Bot = Bot(cursor: Poller.Cursor, open: OpenPrs, running: bool)

  /** Constructing the bot: `openPrs` is `None` when the repository does not
      exist, otherwise the repository's open pull requests. */
  function Init(repository: string, startEvent: Option<int>, now: int,
                openPrs: Option<seq<PullRequest>>): (r: Result<Bot, Error>)
    ensures openPrs.None? <==> r.Failure?
    ensures r.Failure? ==> r.error == LandaException("Invalid owner or repository name: " + repository)
    ensures r.Success? ==>
              && r.value.cursor == Poller.InitCursor(startEvent, now)
              && Indexed(r.value.open)
              && r.value.open.Keys == (set pr | pr in openPrs.value :: pr.headRef)
              && r.value.open == IndexByHead(openPrs.value)
              && !r.value.running
  {
    match openPrs
    case None => Failure(LandaException("Invalid owner or repository name: " + repository))
    case Some(prs) => Success(Bot(Poller.InitCursor(startEvent, now), IndexByHead(prs), false))
  }

  // ---------------------------------------------------------------------------
  // Events

  /** A pull-request event: closing forgets the branch, opening and reopening
      track it, and only opening asks for the pull request to be handled. */
  function OnPullRequest(open: OpenPrs, action: string, pr: PullRequest): (r: (OpenPrs, Option<PullRequest>))
    ensures r.1.Some? <==> action == "opened"
    ensures r.1.Some? ==> r.1.value == pr
    ensures pr.headRef in r.0 <==>
              || action == "opened" || action == "reopened"
              || (action != "closed" && pr.headRef in open)
    ensures forall b :: b != pr.headRef ==> (b in r.0 <==> b in open) && (b in open ==> r.0[b] == open[b])
    ensures pr.headRef in r.0 && pr.headRef !in open ==> r.0[pr.headRef] == pr
    ensures action == "opened" || action == "reopened" ==> r.0 == open[pr.headRef := pr]
    ensures action == "closed" ==> r.0 == open - {pr.headRef}
    ensures action !in {"opened", "reopened", "closed"} ==> r.0 == open
  {
    if action == "closed" then (open - {pr.headRef}, None)
    else if action == "opened" then (open[pr.headRef := pr], Some(pr))
    else if action == "reopened" then (open[pr.headRef := pr], None)
    else (open, None)
  }

  /** Opening and then closing a pull request leaves no trace of its branch,
      whatever was tracked under it before. */
  lemma OpenThenCloseForgets(open: OpenPrs, pr: PullRequest)
    ensures var afterOpen := OnPullRequest(open, "opened", pr).0;
      OnPullRequest(afterOpen, "closed", pr).0 == open - {pr.headRef}
  {
  }

  const HeadsPrefix := "refs/heads/"

  /** The branch key of a pushed ref as the bot computes it: the part after
      the ref's last slash. */
  function PushKeyAsWritten(ref: string): (key: string)
    requires Strings.StartsWith(ref, HeadsPrefix)
    ensures '/' !in key
  {
    assert ref[4] == '/';
    Strings.AfterLast(ref, '/')
  }

  /** The branch a ref names: everything after `refs/heads/`. */
  function BranchOf(ref: string): (branch: string)
    requires Strings.StartsWith(ref, HeadsPrefix)
    ensures HeadsPrefix + branch == ref
  {
    ref[|HeadsPrefix|..]
  }

  /** A push as the bot handles it: the ref must name a branch, and the
      pull request whose head has that name, if any, is to be handled. */
  function OnPushAsWritten(open: OpenPrs, ref: string): (r: Result<Option<PullRequest>, Error>)
    ensures r.Failure? <==> !Strings.StartsWith(ref, HeadsPrefix)
    ensures r.Failure? ==> r.error == AssertionError
    ensures r.Success? && r.value.Some? ==> r.value.value in open.Values
    // the key is the text after the ref's last slash
    ensures r.Success? ==> '/' in ref && (r.value.Some? <==> Strings.AfterLast(ref, '/') in open)
    ensures r.Success? && r.value.Some? ==> r.value.value == open[Strings.AfterLast(ref, '/')]
  {
    if !Strings.StartsWith(ref, HeadsPrefix) then Failure(AssertionError)
    else
      var key := PushKeyAsWritten(ref);
      if key in open then Success(Some(open[key])) else Success(None)
  }

  /** A push with the branch taken whole from the ref. */
  function OnPush(open: OpenPrs, ref: string): (r: Result<Option<PullRequest>, Error>)
    ensures r.Failure? <==> !Strings.StartsWith(ref, HeadsPrefix)
    ensures r.Failure? ==> r.error == AssertionError
    ensures r.Success? ==> (r.value.Some? <==> BranchOf(ref) in open)
    ensures r.Success? && r.value.Some? ==> r.value.value == open[BranchOf(ref)]
  {
    if !Strings.StartsWith(ref, HeadsPrefix) then Failure(AssertionError)
    else
      var branch := BranchOf(ref);
      if branch in open then Success(Some(open[branch])) else Success(None)
  }

  /** A push to the head branch of a tracked pull request handles exactly
      that pull request. */
  lemma PushHandlesItsPullRequest(open: OpenPrs, pr: PullRequest)
    requires Indexed(open) && pr.headRef in open && open[pr.headRef] == pr
    ensures OnPush(open, HeadsPrefix + pr.headRef) == Success(Some(pr))
  {
  }

  /** The two agree on branch names without a slash. */
  lemma PushKeysAgreeWithoutSlash(open: OpenPrs, branch: string)
    requires '/' !in branch
    ensures OnPushAsWritten(open, HeadsPrefix + branch) == OnPush(open, HeadsPrefix + branch)
  {
    var ref := HeadsPrefix + branch;
    assert Strings.StartsWith(ref, HeadsPrefix);
    var key := Strings.AfterLast(ref, '/');
    assert ref[|ref| - |key| - 1] == '/';
    assert ref[|HeadsPrefix| - 1] == '/';
    forall i | |HeadsPrefix| <= i < |ref|
      ensures ref[i] != '/'
    {
      assert ref[i] == branch[i - |HeadsPrefix|];
    }
    assert |key| == |branch|;
  }

  /** A push to `feature/x` misses the open pull request on `feature/x` and
      handles the one on `x` instead. */
  lemma PushToSlashedBranchMisses(feature: PullRequest, other: PullRequest)
    requires feature.headRef == "feature/x" && other.headRef == "x"
    ensures var open := map["feature/x" := feature, "x" := other];
      && OnPushAsWritten(open, "refs/heads/feature/x") == Success(Some(other))
      && OnPush(open, "refs/heads/feature/x") == Success(Some(feature))
  {
    var ref := "refs/heads/feature/x";
    assert Strings.StartsWith(ref, HeadsPrefix);
    var key := Strings.AfterLast(ref, '/');
    assert ref[|ref| - |key| - 1] == '/' && '/' !in key;
    assert key == "x";
    assert BranchOf(ref) == "feature/x";
  }

  /** The bot has a handler for the event: it is a pull-request event, or a
      push to a branch. */
  predicate HasHandler(e: Event) {
    && !e.kind.OtherEvent?
    && (e.kind.PushEvent? ==> Strings.StartsWith(e.kind.ref, HeadsPrefix))
  }

  /** What handling an event without a handler raises. */
  function HandlerError(e: Event): Error {
    if e.kind.OtherEvent? then AttributeError(e.kind.typeName) else AssertionError
  }

  /** Dispatching a yielded event by its type: the new map, and the pull
      request to handle, if any. A push is looked up as the bot does it, by
      the text after the ref's last slash. */
  function Dispatch(open: OpenPrs, e: Event): (r: Result<(OpenPrs, Option<PullRequest>), Error>)
    ensures r.Failure? <==> !HasHandler(e)
    ensures r.Failure? ==> r.error == HandlerError(e)
    ensures e.kind.PullRequestEvent? ==> r == Success(OnPullRequest(open, e.kind.action, e.kind.pr))
    ensures e.kind.PushEvent? && r.Success? ==>
              && r.value.0 == open
              && '/' in e.kind.ref
              && (r.value.1.Some? <==> Strings.AfterLast(e.kind.ref, '/') in open)
              && (r.value.1.Some? ==> r.value.1.value == open[Strings.AfterLast(e.kind.ref, '/')])
    ensures Indexed(open) && r.Success? ==> Indexed(r.value.0)
    ensures Indexed(open) && r.Success? && r.value.1.Some? ==>
              r.value.1.value.headRef in r.value.0 && r.value.0[r.value.1.value.headRef] == r.value.1.value
  {
    match e.kind
    case PullRequestEvent(action, pr) => Success(OnPullRequest(open, action, pr))
    case PushEvent(ref) =>
      var handled :- OnPushAsWritten(open, ref);
      Success((open, handled))
    case OtherEvent(name) => Failure(AttributeError(name))
  }

  /** A push to the slash-free head branch of a tracked pull request hands
      that pull request over and keeps the map. */
  lemma PushToTrackedBranchHandlesIt(open: OpenPrs, pr: PullRequest, id: int, created: int)
    requires Indexed(open) && pr.headRef in open && open[pr.headRef] == pr
    requires '/' !in pr.headRef
    ensures Dispatch(open, Event(id, created, PushEvent(HeadsPrefix + pr.headRef))) == Success((open, Some(pr)))
  {
    PushKeysAgreeWithoutSlash(open, pr.headRef);
    PushHandlesItsPullRequest(open, pr);
  }

  // ---------------------------------------------------------------------------
  // Labelling

  /** The labels a pull request earns: every team its author belongs to, and
      every pattern key one of its files matches. */
  function PrLabels(teams: map<string, set<string>>, patterns: map<string, string>, pr: PullRequest): (labels: set<string>)
    ensures forall l :: l in labels <==>
              || (l in teams && pr.author in teams[l])
              || (l in patterns && exists f :: f in pr.files && Glob.Match(f, patterns[l]))
  {
    (set t | t in teams && pr.author in teams[t])
      + (set k | k in patterns && Decision.AnyFileMatches(pr.files, patterns[k]))
  }

  /** A call to the hosting service: add labels to a pull request. */
  datatype Call = AddLabels(number: int, labels: set<string>)

  /** Handling a pull request adds its labels, never removes any, and in
      debug mode or when it earns none issues nothing. */
  function HandlePr(teams: map<string, set<string>>, patterns: map<string, string>, debug: bool, pr: PullRequest): (calls: seq<Call>)
    ensures |calls| <= 1
    ensures |calls| == 1 <==> !debug && PrLabels(teams, patterns, pr) != {}
    ensures forall c :: c in calls ==> c == AddLabels(pr.number, PrLabels(teams, patterns, pr))
  {
    var labels := PrLabels(teams, patterns, pr);
    if labels != {} && !debug then [AddLabels(pr.number, labels)] else []
  }

  /** The labels a call adds are exactly the ones the pull request earns:
      each team its author is on, and each pattern one of its files matches. */
  lemma HandlePrAddsEarnedLabels(teams: map<string, set<string>>, patterns: map<string, string>, debug: bool, pr: PullRequest)
    ensures forall c, l :: c in HandlePr(teams, patterns, debug, pr) ==>
              (l in c.labels <==>
                 || (l in teams && pr.author in teams[l])
                 || (l in patterns && exists f :: f in pr.files && Glob.Match(f, patterns[l])))
  {
  }

  /** A pull request as `handle_pr` sees it: the tracked record, with the
      files the hosting service lists for it when it is handled (the file
      list is fetched anew on every handling, so a push can bring files the
      record did not have). */
  function Refetched(pr: PullRequest, files: seq<string>): PullRequest {
    pr.(files := files)
  }

  /** The call that labels `pr` with what it earns when the service lists
      `files` for it. */
  function LabelCall(teams: map<string, set<string>>, patterns: map<string, string>,
                     pr: PullRequest, files: seq<string>): Call {
    AddLabels(pr.number, PrLabels(teams, patterns, Refetched(pr, files)))
  }

  /** A call that adds at least one label. */
  predicate Adds(c: Call) {
    c.labels != {}
  }

  /** For each handled pull request, the call its labels would make. */
  function Candidates(teams: map<string, set<string>>, patterns: map<string, string>,
                      prs: seq<PullRequest>, fetched: seq<seq<string>>): (cs: seq<Call>)
    requires |fetched| == |prs|
    ensures |cs| == |prs|
    ensures forall k :: 0 <= k < |prs| ==> cs[k] == LabelCall(teams, patterns, prs[k], fetched[k])
  {
    seq(|prs|, k requires 0 <= k < |prs| => LabelCall(teams, patterns, prs[k], fetched[k]))
  }

  /** The calls for a run of handled pull requests, in order; `fetched[k]`
      is the file list the service returns when `prs[k]` is handled. Each
      call labels one handled pull request with what it earns given its
      fetched files, and outside debug mode every handled pull request that
      earns a label gets its call. */
  function LabelCalls(teams: map<string, set<string>>, patterns: map<string, string>, debug: bool,
                      prs: seq<PullRequest>, fetched: seq<seq<string>>): (calls: seq<Call>)
    requires |fetched| == |prs|
    ensures |calls| <= |prs|
    ensures debug ==> calls == []
    ensures forall c :: c in calls ==> Adds(c)
    ensures forall c :: c in calls ==> exists k :: 0 <= k < |prs| && c == LabelCall(teams, patterns, prs[k], fetched[k])
    ensures !debug ==> forall k :: 0 <= k < |prs| && Adds(LabelCall(teams, patterns, prs[k], fetched[k])) ==>
              LabelCall(teams, patterns, prs[k], fetched[k]) in calls
  {
    if debug then [] else Seqs.Filter(Candidates(teams, patterns, prs, fetched), Adds)
  }

  /** The calls are those `handle_pr` makes for each handled pull request in
      turn: one more pull request appends its `HandlePr` calls. */
  lemma LabelCallsAreHandlePrCalls(teams: map<string, set<string>>, patterns: map<string, string>, debug: bool,
                                   prs: seq<PullRequest>, fetched: seq<seq<string>>)
    requires |fetched| == |prs| > 0
    ensures var n := |prs| - 1;
      LabelCalls(teams, patterns, debug, prs, fetched)
        == LabelCalls(teams, patterns, debug, prs[..n], fetched[..n]) + HandlePr(teams, patterns, debug, Refetched(prs[n], fetched[n]))
  {
    var n := |prs| - 1;
    var cs := Candidates(teams, patterns, prs, fetched);
    var before := Candidates(teams, patterns, prs[..n], fetched[..n]);
    assert cs == before + [cs[n]];
    Seqs.FilterSnoc(before, cs[n], Adds);
  }

  /** The files a tracked record holds are never read: records that differ
      only in their stored files give the same calls. */
  lemma LabelCallsIgnoreStoredFiles(teams: map<string, set<string>>, patterns: map<string, string>,
                                                       debug: bool, prs: seq<PullRequest>, other: seq<PullRequest>,
                                                       fetched: seq<seq<string>>)
    requires |fetched| == |prs| == |other|
    requires forall k :: 0 <= k < |prs| ==> other[k] == prs[k].(files := other[k].files)
    ensures LabelCalls(teams, patterns, debug, prs, fetched) == LabelCalls(teams, patterns, debug, other, fetched)
  {
    forall k | 0 <= k < |prs|
      ensures LabelCall(teams, patterns, prs[k], fetched[k]) == LabelCall(teams, patterns, other[k], fetched[k])
    {
      assert Refetched(prs[k], fetched[k]) == Refetched(other[k], fetched[k]);
    }
    assert Candidates(teams, patterns, prs, fetched) == Candidates(teams, patterns, other, fetched);
  }

  /** Event `e` hands `pr` over for labelling: it opens `pr`, or it is a push
      whose key, the text after the ref's last slash, is `pr`'s head branch. */
  predicate HandsOver(e: Event, pr: PullRequest) {
    || e.kind == PullRequestEvent("opened", pr)
    || (e.kind.PushEvent? && '/' in e.kind.ref && Strings.AfterLast(e.kind.ref, '/') == pr.headRef)
  }

  /** The yielded events dispatched in order: the final map, the pull
      requests handed over for handling, and for each the index of the event
      that handed it over; the first event without a handler stops the run. */
  function Replay(open: OpenPrs, events: seq<Event>): (r: Result<(OpenPrs, seq<PullRequest>, seq<nat>), Error>)
    ensures r.Success? <==> forall i :: 0 <= i < |events| ==> HasHandler(events[i])
    ensures Indexed(open) && r.Success? ==> Indexed(r.value.0)
    ensures r.Success? ==> |r.value.1| == |r.value.2| <= |events|
    ensures r.Success? ==> forall k :: 0 <= k < |r.value.2| ==> r.value.2[k] < |events|
  {
    if |events| == 0 then Success((open, [], []))
    else
      var n: nat := |events| - 1;
      var init := events[..n];
      assert forall i :: 0 <= i < |init| ==> init[i] == events[i];
      var before := Replay(open, init);
      if before.Failure? then Failure(before.error)
      else
        var (mid, handled, at) := before.value;
        var step := Dispatch(mid, events[n]);
        if step.Failure? then Failure(step.error)
        else if step.value.1.None? then Success((step.value.0, handled, at))
        else
          Success((step.value.0, handled + [step.value.1.value], at + [n]))
  }

  /** The file lists fetched at the events that handed pull requests over. */
  function Picked(fetched: seq<seq<string>>, at: seq<nat>): (files: seq<seq<string>>)
    requires forall k :: 0 <= k < |at| ==> at[k] < |fetched|
    ensures |files| == |at|
    ensures forall k :: 0 <= k < |at| ==> files[k] == fetched[at[k]]
  {
    seq(|at|, k requires 0 <= k < |at| => fetched[at[k]])
  }

  /** Monitoring: the events are dispatched in order, and each handed-over
      pull request is labelled from the files the service lists when its
      event is handled, `fetched[i]` for event `i` (ignored for an event that
      hands nothing over). Labelling does not touch the map, so issuing each
      call right after its event's dispatch, as the bot does, issues the same
      calls. */
  function Monitor(open: OpenPrs, events: seq<Event>, teams: map<string, set<string>>,
                   patterns: map<string, string>, debug: bool, fetched: seq<seq<string>>)
    : (r: Result<(OpenPrs, seq<PullRequest>, seq<Call>), Error>)
    requires |fetched| == |events|
    ensures r.Success? <==> forall i :: 0 <= i < |events| ==> HasHandler(events[i])
    ensures Indexed(open) && r.Success? ==> Indexed(r.value.0)
    ensures r.Success? ==> |r.value.1| <= |events| && |r.value.2| <= |events|
    ensures debug && r.Success? ==> r.value.2 == []
    ensures r.Success? ==>
              && Replay(open, events).Success?
              && r.value.0 == Replay(open, events).value.0
              && r.value.1 == Replay(open, events).value.1
              && r.value.2 == LabelCalls(teams, patterns, debug, r.value.1, Picked(fetched, Replay(open, events).value.2))
  {
    var (next, handled, at) :- Replay(open, events);
    Success((next, handled, LabelCalls(teams, patterns, debug, handled, Picked(fetched, at))))
  }

  /** A failing run stops at its first event without a handler, with the
      error that event raises. */
  lemma {:induction false} ReplayStopsAtFirstUnhandled(open: OpenPrs, events: seq<Event>)
    ensures var r := Replay(open, events);
      r.Failure? ==>
        exists i :: 0 <= i < |events| && !HasHandler(events[i]) && r.error == HandlerError(events[i])
          && forall j :: 0 <= j < i ==> HasHandler(events[j])
  {
    var r := Replay(open, events);
    if |events| > 0 && r.Failure? {
      var init := events[..|events| - 1];
      assert forall i :: 0 <= i < |init| ==> init[i] == events[i];
      ReplayStopsAtFirstUnhandled(open, init);
      if Replay(open, init).Success? {
        assert !HasHandler(events[|events| - 1]);
      }
    }
  }

  /** One more event is dispatched against the map the earlier events left:
      the run ends with the map that dispatch leaves, and hands over what it
      hands over, after the earlier events' pull requests, tagged with its
      index. */
  lemma ReplaySnoc(open: OpenPrs, events: seq<Event>)
    requires |events| > 0 && Replay(open, events).Success?
    ensures var n := |events| - 1;
      var before := Replay(open, events[..n]);
      && before.Success?
      && Dispatch(before.value.0, events[n]).Success?
      && Replay(open, events).value.0 == Dispatch(before.value.0, events[n]).value.0
      && var now := Dispatch(before.value.0, events[n]).value.1;
         && Replay(open, events).value.1 == before.value.1 + (if now.Some? then [now.value] else [])
         && Replay(open, events).value.2 == before.value.2 + (if now.Some? then [n] else [])
  {
  }

  /** The tags run in event order: each event hands over at most one pull
      request, and later events' pull requests come later. */
  lemma {:induction false} ReplayTagsIncrease(open: OpenPrs, events: seq<Event>)
    ensures var r := Replay(open, events);
      r.Success? ==> Seqs.Increasing(r.value.2)
  {
    var r := Replay(open, events);
    if |events| > 0 && r.Success? {
      var n := |events| - 1;
      ReplaySnoc(open, events);
      ReplayTagsIncrease(open, events[..n]);
      var at := Replay(open, events[..n]).value.2;
      if r.value.2 != at {
        Seqs.AppendAboveIncreasing(at, n);
      }
    }
  }

  /** Event `i` handed over `now`: some entry is tagged `i` iff `now` is
      present, and every entry tagged `i` is `now`. */
  predicate TaggedAt(handled: seq<PullRequest>, at: seq<nat>, i: nat, now: Option<PullRequest>)
    requires |handled| == |at|
  {
    && (now.Some? <==> exists k :: 0 <= k < |at| && at[k] == i)
    && forall k :: 0 <= k < |at| && at[k] == i ==> now == Some(handled[k])
  }

  /** Appending the entry of a later event keeps what an earlier one handed over. */
  lemma SnocKeepsTag(handled: seq<PullRequest>, at: seq<nat>, x: Option<PullRequest>, n: nat,
                     i: nat, now: Option<PullRequest>)
    requires |handled| == |at| && i < n
    requires forall k :: 0 <= k < |at| ==> at[k] < n
    requires TaggedAt(handled, at, i, now)
    ensures TaggedAt(handled + (if x.Some? then [x.value] else []), at + (if x.Some? then [n] else []), i, now)
  {
    var at' := at + (if x.Some? then [n] else []);
    assert forall k :: 0 <= k < |at| ==> at'[k] == at[k];
  }

  /** Appending the entry of event `n` records what it handed over. */
  lemma SnocAddsTag(handled: seq<PullRequest>, at: seq<nat>, x: Option<PullRequest>, n: nat)
    requires |handled| == |at|
    requires forall k :: 0 <= k < |at| ==> at[k] < n
    ensures TaggedAt(handled + (if x.Some? then [x.value] else []), at + (if x.Some? then [n] else []), n, x)
  {
    if x.Some? {
      assert (at + [n])[|at|] == n;
    }
  }

  /** Each event is dispatched against the map the events before it left:
      event `i` hands a pull request over iff its dispatch against that map
      does, and then exactly that pull request, tagged `i`. */
  lemma {:induction false} ReplayDispatchesInTurn(open: OpenPrs, events: seq<Event>, i: nat)
    requires i < |events| && Replay(open, events).Success?
    ensures var mid := Replay(open, events[..i]);
      && mid.Success?
      && Dispatch(mid.value.0, events[i]).Success?
      && TaggedAt(Replay(open, events).value.1, Replay(open, events).value.2, i,
                  Dispatch(mid.value.0, events[i]).value.1)
  {
    var n := |events| - 1;
    ReplaySnoc(open, events);
    var before := Replay(open, events[..n]).value;
    var now := Dispatch(before.0, events[n]).value.1;
    if i == n {
      SnocAddsTag(before.1, before.2, now, n);
    } else {
      ReplayDispatchesInTurn(open, events[..n], i);
      assert events[..n][..i] == events[..i] && events[..n][i] == events[i];
      SnocKeepsTag(before.1, before.2, now, n, i, Dispatch(Replay(open, events[..i]).value.0, events[i]).value.1);
    }
  }

  /** A push to a branch is looked up in the map the earlier events of the
      same run left: it hands a pull request over iff the key after the
      ref's last slash is tracked there, and then the one tracked. */
  lemma ReplayPushSeesEarlierEvents(open: OpenPrs, events: seq<Event>, i: nat)
    requires i < |events| && Replay(open, events).Success? && events[i].kind.PushEvent?
    ensures Replay(open, events[..i]).Success? && '/' in events[i].kind.ref
    ensures var mid := Replay(open, events[..i]).value.0;
      var key := Strings.AfterLast(events[i].kind.ref, '/');
      var (_, handled, at) := Replay(open, events).value;
      && ((exists k :: 0 <= k < |at| && at[k] == i) <==> key in mid)
      && forall k :: 0 <= k < |at| && at[k] == i ==> key in mid && handled[k] == mid[key]
  {
    ReplayDispatchesInTurn(open, events, i);
  }

  /** Replaying one more event is dispatching it against the map the run left. */
  lemma ReplayAppendOne(open: OpenPrs, events: seq<Event>, e: Event)
    requires Replay(open, events).Success?
    requires Dispatch(Replay(open, events).value.0, e).Success?
    ensures var (mid, handled, at) := Replay(open, events).value;
      var (next, now) := Dispatch(mid, e).value;
      Replay(open, events + [e])
        == Success((next, handled + (if now.Some? then [now.value] else []), at + (if now.Some? then [|events|] else [])))
  {
    var all := events + [e];
    assert all[..|events|] == events && all[|events|] == e;
    assert forall i :: 0 <= i < |all| ==> HasHandler(all[i]) by {
      assert forall i :: 0 <= i < |events| ==> all[i] == events[i];
    }
    ReplaySnoc(open, all);
  }

  /** A push to `refs/heads/b` has a handler and is looked up under `b`. */
  lemma PushToBKey()
    ensures var ref := "refs/heads/b";
      Strings.StartsWith(ref, HeadsPrefix) && '/' in ref && Strings.AfterLast(ref, '/') == "b"
  {
    var ref := "refs/heads/b";
    assert ref[4] == '/';
    var key := Strings.AfterLast(ref, '/');
    assert ref[|ref| - |key| - 1] == '/' && '/' !in key;
  }

  /** Opening a pull request on `b` and then pushing to `b` in one run hands
      it over twice: the push sees the branch the opening tracked. */
  lemma OpenThenPushHandsOverTwice(p: PullRequest, id: int, created: int)
    requires p.headRef == "b"
    ensures var events := [Event(id, created, PullRequestEvent("opened", p)),
                           Event(id + 1, created, PushEvent("refs/heads/b"))];
      Replay(map[], events) == Success((map["b" := p], [p, p], [0, 1]))
  {
    var e0 := Event(id, created, PullRequestEvent("opened", p));
    var e1 := Event(id + 1, created, PushEvent("refs/heads/b"));
    var empty: OpenPrs := map[];
    var tracked := map["b" := p];
    OpenReplayTracks(p, e0);
    PushToBHandsOver(tracked, p, e1);
    ReplayAppendOne(empty, [e0], e1);
    assert [e0] + [e1] == [e0, e1];
    var tags: seq<nat> := [0];
    assert [p] + [p] == [p, p] && tags + [1] == [0, 1];
  }

  /** Replaying the opening of a pull request tracks and hands it over. */
  lemma OpenReplayTracks(p: PullRequest, e: Event)
    requires e.kind == PullRequestEvent("opened", p)
    ensures Replay(map[], [e]) == Success((map[p.headRef := p], [p], [0]))
  {
    ReplayOne(map[], e);
  }

  /** A push to `refs/heads/b` hands over the pull request tracked on `b`. */
  lemma PushToBHandsOver(open: OpenPrs, p: PullRequest, e: Event)
    requires "b" in open && open["b"] == p && e.kind == PushEvent("refs/heads/b")
    ensures Dispatch(open, e) == Success((open, Some(p)))
  {
    PushToBKey();
  }

  /** Closing the pull request on `b` and then pushing to `b` hands nothing
      over: the push sees the branch the closing forgot. */
  lemma CloseThenPushHandsNothing(p: PullRequest, id: int, created: int)
    requires p.headRef == "b"
    ensures var events := [Event(id, created, PullRequestEvent("closed", p)),
                           Event(id + 1, created, PushEvent("refs/heads/b"))];
      Replay(map["b" := p], events) == Success((map[], [], []))
  {
    var e0 := Event(id, created, PullRequestEvent("closed", p));
    var e1 := Event(id + 1, created, PushEvent("refs/heads/b"));
    var empty: OpenPrs := map[];
    ReplayOne(map["b" := p], e0);
    assert map["b" := p] - {"b"} == empty;
    assert Replay(map["b" := p], [e0]) == Success((empty, [], []));
    PushToBKey();
    ReplayAppendOne(map["b" := p], [e0], e1);
    assert [e0] + [e1] == [e0, e1];
  }

  /** Every opened pull request is handed over, tagged with the event that
      opened it. */
  lemma {:induction false} ReplayHandsOverOpened(open: OpenPrs, events: seq<Event>)
    ensures var r := Replay(open, events);
      r.Success? ==>
        forall i :: 0 <= i < |events| && events[i].kind.PullRequestEvent? && events[i].kind.action == "opened" ==>
          exists k :: 0 <= k < |r.value.1| && r.value.1[k] == events[i].kind.pr && r.value.2[k] == i
  {
    var r := Replay(open, events);
    if |events| > 0 && r.Success? {
      var n := |events| - 1;
      var init := events[..n];
      ReplaySnoc(open, events);
      ReplayHandsOverOpened(open, init);
      var before := Replay(open, init).value;
      var now := Dispatch(before.0, events[n]).value.1;
      forall i | 0 <= i < |events| && events[i].kind.PullRequestEvent? && events[i].kind.action == "opened"
        ensures exists k :: 0 <= k < |r.value.1| && r.value.1[k] == events[i].kind.pr && r.value.2[k] == i
      {
        if i == n {
          var k := |before.1|;
          assert now == Some(events[i].kind.pr);
          assert r.value.1[k] == events[i].kind.pr && r.value.2[k] == i;
        } else {
          assert init[i] == events[i];
          var k :| 0 <= k < |before.1| && before.1[k] == init[i].kind.pr && before.2[k] == i;
          assert r.value.1[k] == before.1[k] && r.value.2[k] == before.2[k];
        }
      }
    }
  }

  /** Each handed-over pull request was handed over by its own event: that
      event opens it, or is a push keyed to its head branch. */
  lemma {:induction false} ReplayHandsOverOnlyOpenedOrPushed(open: OpenPrs, events: seq<Event>)
    requires Indexed(open)
    ensures var r := Replay(open, events);
      r.Success? ==> forall k :: 0 <= k < |r.value.1| ==> HandsOver(events[r.value.2[k]], r.value.1[k])
  {
    var r := Replay(open, events);
    if |events| > 0 && r.Success? {
      var n := |events| - 1;
      var init := events[..n];
      ReplaySnoc(open, events);
      ReplayHandsOverOnlyOpenedOrPushed(open, init);
      var before := Replay(open, init).value;
      var now := Dispatch(before.0, events[n]).value.1;
      forall k | 0 <= k < |r.value.1|
        ensures HandsOver(events[r.value.2[k]], r.value.1[k])
      {
        if k < |before.1| {
          assert r.value.1[k] == before.1[k] && r.value.2[k] == before.2[k];
          assert init[before.2[k]] == events[before.2[k]];
        } else {
          assert r.value.2[k] == n && r.value.1[k] == now.value;
        }
      }
    }
  }

  /** A monitoring run fails with the error of its first event that has no
      handler. When it succeeds, every opened pull request is handed over,
      and each handed-over pull request was opened or pushed to by its event;
      every call adds the labels some such pull request earns with the files
      listed at its event, and outside debug mode every opened pull request
      that earns a label with those files gets its call. */
  lemma MonitorHandlesOpenedAndPushed(open: OpenPrs, events: seq<Event>, teams: map<string, set<string>>,
                                      patterns: map<string, string>, debug: bool, fetched: seq<seq<string>>)
    requires |fetched| == |events|
    requires Indexed(open)
    ensures var r := Monitor(open, events, teams, patterns, debug, fetched);
      && (r.Failure? ==>
            exists i :: 0 <= i < |events| && !HasHandler(events[i]) && r.error == HandlerError(events[i])
              && forall j :: 0 <= j < i ==> HasHandler(events[j]))
      && (r.Success? ==>
            && (forall e :: e in events && e.kind.PullRequestEvent? && e.kind.action == "opened" ==> e.kind.pr in r.value.1)
            && (forall pr :: pr in r.value.1 ==> exists e :: e in events && HandsOver(e, pr))
            && (forall c :: c in r.value.2 ==>
                  exists i, pr :: 0 <= i < |events| && HandsOver(events[i], pr) && c == LabelCall(teams, patterns, pr, fetched[i]))
            && (!debug ==>
                  forall i :: (&& 0 <= i < |events| && events[i].kind.PullRequestEvent? && events[i].kind.action == "opened"
                               && Adds(LabelCall(teams, patterns, events[i].kind.pr, fetched[i]))) ==>
                    LabelCall(teams, patterns, events[i].kind.pr, fetched[i]) in r.value.2))
  {
    ReplayStopsAtFirstUnhandled(open, events);
    MonitorHandsOver(open, events, teams, patterns, debug, fetched);
    MonitorCallsEarned(open, events, teams, patterns, debug, fetched);
  }

  lemma MonitorHandsOver(open: OpenPrs, events: seq<Event>, teams: map<string, set<string>>,
                         patterns: map<string, string>, debug: bool, fetched: seq<seq<string>>)
    requires |fetched| == |events|
    requires Indexed(open)
    ensures var r := Monitor(open, events, teams, patterns, debug, fetched);
      r.Success? ==>
        && (forall e :: e in events && e.kind.PullRequestEvent? && e.kind.action == "opened" ==> e.kind.pr in r.value.1)
        && (forall pr :: pr in r.value.1 ==> exists e :: e in events && HandsOver(e, pr))
  {
    var r := Monitor(open, events, teams, patterns, debug, fetched);
    if r.Success? {
      var (_, handled, at) := Replay(open, events).value;
      ReplayHandsOverOpened(open, events);
      ReplayHandsOverOnlyOpenedOrPushed(open, events);
      forall e | e in events && e.kind.PullRequestEvent? && e.kind.action == "opened"
        ensures e.kind.pr in handled
      {
        var i :| 0 <= i < |events| && events[i] == e;
        var k :| 0 <= k < |handled| && handled[k] == events[i].kind.pr && at[k] == i;
      }
      forall pr | pr in handled
        ensures exists e :: e in events && HandsOver(e, pr)
      {
        var k :| 0 <= k < |handled| && handled[k] == pr;
        assert events[at[k]] in events;
      }
    }
  }

  lemma MonitorCallsEarned(open: OpenPrs, events: seq<Event>, teams: map<string, set<string>>,
                           patterns: map<string, string>, debug: bool, fetched: seq<seq<string>>)
    requires |fetched| == |events|
    requires Indexed(open)
    ensures var r := Monitor(open, events, teams, patterns, debug, fetched);
      r.Success? ==>
        && (forall c :: c in r.value.2 ==>
              exists i, pr :: 0 <= i < |events| && HandsOver(events[i], pr) && c == LabelCall(teams, patterns, pr, fetched[i]))
        && (!debug ==>
              forall i :: (&& 0 <= i < |events| && events[i].kind.PullRequestEvent? && events[i].kind.action == "opened"
                           && Adds(LabelCall(teams, patterns, events[i].kind.pr, fetched[i]))) ==>
                LabelCall(teams, patterns, events[i].kind.pr, fetched[i]) in r.value.2)
  {
    var r := Monitor(open, events, teams, patterns, debug, fetched);
    if r.Success? {
      var (_, handled, at) := Replay(open, events).value;
      var files := Picked(fetched, at);
      var calls := r.value.2;
      assert calls == LabelCalls(teams, patterns, debug, handled, files);
      forall c | c in calls
        ensures exists i, pr :: 0 <= i < |events| && HandsOver(events[i], pr) && c == LabelCall(teams, patterns, pr, fetched[i])
      {
        ReplayHandsOverOnlyOpenedOrPushed(open, events);
        var k :| 0 <= k < |handled| && c == LabelCall(teams, patterns, handled[k], files[k]);
        assert HandsOver(events[at[k]], handled[k]) && files[k] == fetched[at[k]];
      }
      if !debug {
        forall i | (&& 0 <= i < |events| && events[i].kind.PullRequestEvent? && events[i].kind.action == "opened"
                    && Adds(LabelCall(teams, patterns, events[i].kind.pr, fetched[i])))
          ensures LabelCall(teams, patterns, events[i].kind.pr, fetched[i]) in calls
        {
          ReplayHandsOverOpened(open, events);
          var k :| 0 <= k < |handled| && handled[k] == events[i].kind.pr && at[k] == i;
          assert files[k] == fetched[i];
        }
      }
    }
  }

  /** A push after new commits labels from the files listed at the push,
      whatever files the tracked record holds: the pull request on `b`
      earns `db` once a push brings `db/a`. */
  lemma PushLabelsFromFetchedFiles(p: PullRequest, id: int, created: int)
    requires p.headRef == "b"
    ensures var open := map["b" := p];
      Monitor(open, [Event(id, created, PushEvent("refs/heads/b"))], map[], map["db" := "db/*"], false, [["db/a"]])
        == Success((open, [p], [AddLabels(p.number, {"db"})]))
  {
    PushReplayHandsOver(p, id, created);
    DbLabelCalls(p);
    assert Picked([["db/a"]], [0]) == [["db/a"]];
  }

  /** The push to `b` hands over the pull request tracked on `b`. */
  lemma PushReplayHandsOver(p: PullRequest, id: int, created: int)
    requires p.headRef == "b"
    ensures Replay(map["b" := p], [Event(id, created, PushEvent("refs/heads/b"))]) == Success((map["b" := p], [p], [0]))
  {
    var e := Event(id, created, PushEvent("refs/heads/b"));
    PushToTrackedBranchHandlesIt(map["b" := p], p, id, created);
    assert HeadsPrefix + p.headRef == "refs/heads/b";
    ReplayOne(map["b" := p], e);
  }

  /** Replaying a single event is dispatching it. */
  lemma ReplayOne(open: OpenPrs, e: Event)
    requires Dispatch(open, e).Success?
    ensures var (next, now) := Dispatch(open, e).value;
      Replay(open, [e]) == Success((next, if now.Some? then [now.value] else [], if now.Some? then [0] else []))
  {
    assert [e][..0] == [];
    assert Replay(open, [e][..0]) == Success((open, [], []));
    var noTags: seq<nat> := [];
    assert forall pr: PullRequest :: [] + [pr] == [pr];
    assert noTags + [0] == [0];
  }

  /** Handled with the files `["db/a"]`, the pull request gets one call
      adding `db`. */
  lemma DbLabelCalls(p: PullRequest)
    ensures LabelCalls(map[], map["db" := "db/*"], false, [p], [["db/a"]]) == [AddLabels(p.number, {"db"})]
  {
    var teams: map<string, set<string>> := map[];
    var patterns := map["db" := "db/*"];
    var files := [["db/a"]];
    DbPatternLabelsDbFile(p);
    assert [p][..0] == [] && files[..0] == [];
    assert LabelCalls(teams, patterns, false, [p][..0], files[..0]) == [];
    assert HandlePr(teams, patterns, false, Refetched(p, ["db/a"])) == [AddLabels(p.number, {"db"})];
  }

  /** The pull request with `db/a` among its files earns just `db`. */
  lemma DbPatternLabelsDbFile(p: PullRequest)
    ensures PrLabels(map[], map["db" := "db/*"], Refetched(p, ["db/a"])) == {"db"}
  {
    assert !Glob.HasWildcard("db/") && "db/" + "*" == "db/*";
    Glob.PrefixStar("db/a", "db/");
    assert "db/a"[..3] == "db/";
    assert "db/a" in Refetched(p, ["db/a"]).files;
  }


  // ---------------------------------------------------------------------------
  // The batch run

  /** Every listed pull request number, converted with `int()`. */
  function ParseNumbers(items: seq<string>): (r: Result<seq<int>, Error>)
    ensures r.Success? <==> forall i :: 0 <= i < |items| ==> Strings.IsNumeral(items[i])
    ensures r.Success? ==>
              && |r.value| == |items|
              && forall i :: 0 <= i < |items| ==> Strings.ParseInt(items[i]) == Some(r.value[i])
    ensures r.Failure? ==> exists i :: 0 <= i < |items| && r.error == ValueError(items[i])
  {
    if |items| == 0 then Success([])
    else
      var init := items[..|items| - 1];
      var last := items[|items| - 1];
      assert forall i :: 0 <= i < |init| ==> init[i] == items[i];
      var earlier :- ParseNumbers(init);
      match Strings.ParseInt(last)
      case None => Failure(ValueError(last))
      case Some(n) => Success(earlier + [n])
  }

  predicate Ascending(s: seq<int>) {
    forall i, j :: 0 <= i < j < |s| ==> s[i] <= s[j]
  }

  /** `x` put in front of the first element not smaller than it. */
  function Insert(x: int, s: seq<int>): (r: seq<int>)
    ensures multiset(r) == multiset(s) + multiset{x}
  {
    if |s| == 0 || x <= s[0] then [x] + s
    else
      assert s == [s[0]] + s[1..];
      [s[0]] + Insert(x, s[1..])
  }

  /** Inserting adds `x` and nothing else. */
  lemma {:induction false} InsertElements(x: int, s: seq<int>)
    ensures forall e :: e in Insert(x, s) ==> e == x || e in s
  {
    if |s| > 0 && x > s[0] {
      InsertElements(x, s[1..]);
    }
  }

  /** Inserting into an ascending sequence keeps it ascending. */
  lemma {:induction false} InsertKeepsAscending(x: int, s: seq<int>)
    requires Ascending(s)
    ensures Ascending(Insert(x, s))
  {
    if |s| == 0 || x <= s[0] {
      ConsAscending(x, s);
    } else {
      var rest := Insert(x, s[1..]);
      InsertKeepsAscending(x, s[1..]);
      InsertElements(x, s[1..]);
      forall e | e in rest
        ensures s[0] <= e
      {
        if e != x {
          var k :| 0 <= k < |s[1..]| && s[1..][k] == e;
          assert s[k + 1] == e;
        }
      }
      ConsAscending(s[0], rest);
    }
  }

  /** A value no larger than any element, put in front of an ascending
      sequence, keeps it ascending. */
  lemma ConsAscending(x: int, s: seq<int>)
    requires Ascending(s)
    requires forall e :: e in s ==> x <= e
    ensures Ascending([x] + s)
  {
    var r := [x] + s;
    forall i, j | 0 <= i < j < |r|
      ensures r[i] <= r[j]
    {
      assert r[j] == s[j - 1] && s[j - 1] in s;
      if i > 0 {
        assert r[i] == s[i - 1];
      }
    }
  }

  /** The pull requests handled in a batch run, by number, smallest first. */
  method SortedNumbers(numbers: seq<int>) returns (sorted: seq<int>)
    ensures Ascending(sorted)
    ensures multiset(sorted) == multiset(numbers)
  {
    sorted := [];
    var i := 0;
    while i < |numbers|
      invariant 0 <= i <= |numbers|
      invariant Ascending(sorted)
      invariant multiset(sorted) == multiset(numbers[..i])
    {
      assert numbers[..i + 1] == numbers[..i] + [numbers[i]];
      InsertKeepsAscending(numbers[i], sorted);
      sorted := Insert(numbers[i], sorted);
      i := i + 1;
    }
    assert numbers[..i] == numbers;
  }

  /** The order of a batch run: the listed numbers, converted and sorted;
      one that is not a number stops the run before anything is handled. */
  method BatchOrder(items: seq<string>) returns (r: Result<seq<int>, Error>)
    ensures r.Success? <==> forall i :: 0 <= i < |items| ==> Strings.IsNumeral(items[i])
    ensures r.Success? ==> Ascending(r.value) && |r.value| == |items|
    ensures r.Success? ==> forall i :: 0 <= i < |items| ==> Strings.ParseInt(items[i]).value in r.value
    ensures r.Success? ==> multiset(r.value) == multiset(ParseNumbers(items).value)
  {
    var parsed := ParseNumbers(items);
    if parsed.Failure? {
      return Failure(parsed.error);
    }
    var sorted := SortedNumbers(parsed.value);
    assert |sorted| == |multiset(sorted)| == |multiset(parsed.value)| == |parsed.value|;
    forall i | 0 <= i < |items|
      ensures Strings.ParseInt(items[i]).value in sorted
    {
      assert parsed.value[i] in multiset(parsed.value);
    }
    return Success(sorted);
  }
}

=== FILE: wrappers.dfy ===
/** Python's `None`-or-value as `Option`, and a computation that may raise as
    `Result`; `Result` supports the `:-` early-return operator. */
module Wrappers {

  datatype Option<+T> = None | Some(value: T) {

    /** The wrapped value, or `default` when there is none. */
    function GetOr(default: T): T {
      match this
      case Some(v) => v
      case None => default
    }
  }

  datatype Result<+R, +E> = Success(value: R) | Failure(error: E) {

    predicate IsFailure() {
      Failure?
    }

    function PropagateFailure<U>(): Result<U, E>
      requires Failure?
    {
      Failure(error)
    }

    function Extract(): R
      requires Success?
    {
      value
    }
  }
}
